=== FILE: README.md ===
# Luna's message path, modelled in Dafny

Luna is a Discord bot. Every message posted in a guild goes through the
client's `handleMessage`:

- it is dropped when a bot wrote it, when the bot itself wrote it, or when it
  was posted in an excluded channel;
- its spaces are normalised;
- it must begin with the bot's alias, unless the channel is aliasless;
- the alias word is removed.

What is left goes to `resolveCommandHandler`, which does the following:

- It picks the first catalog command whose identifier or alias equals the
  lower-cased first word. A "singleton" command (identifier starting with `$`)
  matches every word.
- It strips the command word unless the match is a singleton.
- It splits the declared parameters into required ones and `optional: name`
  ones.
- It repairs words where a keyword was glued to its value (`user:Alice`).
- It reads `name:` keywords and the words that follow them into an ordered
  argument map.
- It gives leftover words to the single missing required parameter, or else to
  the single optional parameter.
- It applies the module's requirement gate and the arity check.
- Finally it builds what the handler receives: the argument map, the first
  argument, and the dependency map.

The older teacher client has its own, simpler gate. It lower-cases, trims and
collapses spaces, requires a prefix outside unprefixed channels, and removes
the prefix.

The project has these modules:

- `Wrappers`: `Option`.
- `Text`: the JavaScript string operations used and the `Utils` word helpers,
  over `seq<char>`.
- `Catalog`: commands, the matcher, parameter classification, keys, and
  dependency lookup.
- `Repair`: the colon repair.
- `Arguments`: the insertion-ordered argument map, tokenising, the extraction
  step and loop, and the fallback.
- `Resolver`: the outcome of resolution as a function (`Resolution`) and the
  properties proved about it.
- `Client`: the two handlers as methods. `resolveCommandHandler` is split at
  its natural seams: `ReadArguments` for the parameter reading, with
  `ExtractKeywords`/`ExtractKeyword` for the extraction loop and
  `SettleLeftovers` for the fallback, and `Conclude` for the gate, the arity
  check and the handler's context. The extraction loop is a `for` loop over
  the word list and the argument map. Each method is proved equal to the
  function that specifies it.
- `Teacher`: the teacher client's gate, as a function returning
  `Option<string>`.

The model follows the code where it behaves unexpectedly:

- The alias test is a prefix test on the whole lower-cased text, so "lunatic"
  addresses a bot called "luna" (`Client.AliasIsPrefixTest`).
- Keyword tokens are `name + ":"` and are not lower-cased
  (`src/client/client.ts:128`). So a name declared with capitals is only found
  when it is typed with the same capitals.
- The splice count `end - (start != 0 ? start - 1 : start)` is right only when
  the keyword is at index 0 or 1. Further in, the count falls `start - 1` short
  of the keyword and its span (`Arguments.SpliceCount`). Fewer words are
  removed, and the value is read from fewer words. When the span has at most
  `start - 2` words, not even the keyword is removed.
- Any word ending with `:` ends a keyword's span, not only the declared
  keywords.
- Keywords are extracted in required-then-optional order.
- The "whole text" first argument is the colon-repaired text.

Assumptions about `Utils`, whose source is not part of this model:

- `getWords` splits on `' '` and drops empty words.
- `normaliseSpaces` joins `getWords` with single spaces.
- `removeFirstWord` drops everything up to and including the first space, or
  everything when there is no space.
- `getNameOfClass` is a `className` field of `Command`.

## Model

| member | source | states |
|---|---|---|
| Text.Split | src/client/client.ts:97 | `split` with a one-character separator yields at least one part, no part holds the separator, and the first part is the text up to the first separator |
| Text.JoinSplit | src/client/client.ts:132-140 | joining the parts of a split with the separator gives back the original text |
| Text.SplitAppend | src/client/client.ts:132-133 | splitting at a separator splits the two sides independently |
| Text.GetWords | src/client/client.ts:144 | the words are non-empty and contain no space |
| Text.GetWordsKeepNonSpaces | src/client/client.ts:144 | the words, run together, are exactly the non-space characters of the text, in order |
| Text.GetWordsSpace | src/client/client.ts:144 | a space separates words: the words of `p + " " + x` are the words of `p` followed by the words of `x` |
| Text.WordsOfJoin | src/client/client.ts:80 | non-empty space-free words joined by single spaces are read back as the same words |
| Text.NormaliseSpaces | src/client/client.ts:80 | after `normaliseSpaces` every space stands between two non-space characters; the text has the same words and the same non-space characters as before, and is empty exactly when it had no words |
| Text.NormaliseTwoWords | src/client/client.ts:80 | two words with one space between them are left unchanged by `normaliseSpaces` |
| Text.NormaliseAfterWord | src/client/client.ts:80 | a leading word is kept as it is, followed by one space and the normalised rest |
| Text.FirstWord | src/client/client.ts:97 | the first word is a space-free prefix of the text that runs to the first space or to the end |
| Text.RemoveFirstWord | src/client/client.ts:88 | when the text has a space, it is the first word, one space, and the result; otherwise the result is empty |
| Text.FirstWordOf | src/client/client.ts:97 | for `w + " " + rest` with a space-free `w`, the first word is `w` and removing it leaves `rest` |
| Text.RemoveFirstWordNormalised | src/client/client.ts:88-92 | removing the first word of a normalised text with a space leaves a non-empty normalised text |
| Text.LowerCaseIdempotent | src/client/client.ts:146 | lower-casing yields lower-case text and is idempotent |
| Text.IndexOfFrom | src/teacher/teacher.js:93 | the first occurrence of a pattern at or after a position, or none |
| Text.ReplaceFirst | src/teacher/teacher.js:93 | a text in which the pattern never occurs is unchanged; otherwise exactly as many characters as the pattern has are removed |
| Text.ReplaceFirstAtStart | src/teacher/teacher.js:93 | replacing a pattern the text starts with removes exactly that prefix |
| Text.ReplaceFirstAt | src/client/client.ts:163 | replacing a pattern removes its first occurrence and nothing else |
| Text.TrimLeft | src/teacher/teacher.js:93 | the result is a suffix that does not start with whitespace, and every removed character is whitespace |
| Text.TrimRight | src/teacher/teacher.js:85 | the result is a prefix that does not end with whitespace, and every removed character is whitespace |
| Text.CollapseSpaces | src/teacher/teacher.js:85 | after `replace(/ +/g, ' ')` no two spaces follow each other, the text is no longer, it is empty only when it was, and the first and last characters are kept |
| Text.CollapseKeepsNonSpaces | src/teacher/teacher.js:85 | collapsing removes only spaces: the non-space characters are the same, in the same order |
| Text.CollapseKeepsLowerCase | src/teacher/teacher.js:85 | collapsing lower-case text leaves it lower-case |
| Text.TrimEnds | src/teacher/teacher.js:85 | `trim` never lengthens the text and leaves no whitespace at either end |
| Text.TrimKeepsLowerCase | src/teacher/teacher.js:85 | trimming lower-case text leaves it lower-case |
| Text.CollapseSpacesKeepsCollapsed | src/teacher/teacher.js:85 | text with no double space is unchanged by collapsing |
| Text.CollapseKeepsWords | src/teacher/teacher.js:85 | collapsing keeps the words, so every run of spaces becomes one space and never none |
| Text.RemoveNonAlphanumeric | src/teacher/teacher.js:80 | the sanitised name has only ASCII letters and digits; a name made only of letters and digits is unchanged, and one with none becomes empty |
| Text.RemoveNonAlphanumericAppend | src/teacher/teacher.js:80 | sanitising works character by character: a concatenation sanitises as its two parts do |
| Catalog.FindCommand | src/client/client.ts:97-107 | the match is the first command in catalog order whose identifier or an alias equals the word, or that is a singleton; none exactly when no command qualifies |
| Catalog.SingletonShadows | src/client/client.ts:102-107 | a singleton at position k makes every word match, at k or earlier |
| Catalog.RequiredParameters | src/client/client.ts:122-123 | the required list holds exactly the declared entries without the `optional:` prefix |
| Catalog.OptionalParameters | src/client/client.ts:124-126 | the optional list is no longer than the declarations and holds the second space-separated word of every `optional:` entry |
| Catalog.OptionalNamesDeclared | src/client/client.ts:124-126 | every entry of the optional list is the name read from some `optional:` declaration |
| Catalog.ClassificationPartitions | src/client/client.ts:120-126 | the required and optional lists together have as many entries as were declared |
| Catalog.RequiredOrdered | src/client/client.ts:122-123 | required classification respects concatenation, so declaration order is kept |
| Catalog.OptionalOrdered | src/client/client.ts:124-126 | optional classification respects concatenation, so declaration order is kept |
| Catalog.ParsableKeys | src/client/client.ts:128-163 | making a token from a colon-free name and reading its key back gives the name: the key written is the parameter declared |
| Catalog.KeywordsLayout | src/client/client.ts:127-128 | the tokens are the required tokens, then the optional ones, one per declared parameter |
| Catalog.KeyOf | src/client/client.ts:163 | a token without a colon is its own key; a token with a colon loses exactly one character |
| Catalog.ParsableAppend | src/client/client.ts:127-128 | making tokens respects concatenation |
| Catalog.KeyOfPlain | src/client/client.ts:163 | the key written for a token `name:` is the name itself when the name has no colon |
| Catalog.FindByClass | src/client/client.ts:208-210 | the found command carries the class name, and none is found exactly when no command carries it |
| Catalog.FindByClassFirst | src/client/client.ts:208-210 | the found command is the first one in catalog order carrying the class name |
| Catalog.Dependencies | src/client/client.ts:205-213 | the dependency map's keys are exactly the needed names that some command carries, each mapped to the first such command |
| Repair.SpaceColonsIsSplitJoin | src/client/client.ts:136 | `split(':').join(': ')` puts a space after every colon and changes nothing else |
| Repair.RepairContent | src/client/client.ts:132-140 | after one pass every word either has no colon or ends with one, and a text already in that state is left exactly as it is |
| Repair.RepairWords | src/client/client.ts:133-139 | the repair keeps the number of words |
| Repair.RepairWordSettled | src/client/client.ts:135-137 | a repaired word, split at spaces, has no piece with a colon except at its end |
| Repair.RepairIdempotent | src/client/client.ts:132-140 | running the repair twice is the same as running it once |
| Arguments.Lookup | src/client/client.ts:166 | a key has a value exactly when it is among the map's keys |
| Arguments.Set | src/client/client.ts:163 | `Map.set` adds the key, gives it the new value, leaves every other key's value alone, and keeps the first entry in place unless it was that key |
| Arguments.SetDistinct | src/client/client.ts:163 | setting never duplicates a key |
| Arguments.ToMapSet | src/client/client.ts:163 | what the handler sees of `Map.set`: the key is bound to the new value, and every other key keeps its value |
| Arguments.Tokenise | src/client/client.ts:144-148 | one token per word; a word whose lower-case form is a keyword token becomes that token, and every other word is kept as it is, case included |
| Arguments.IndexOf | src/client/client.ts:155 | `indexOf` gives the first position holding the token |
| Arguments.FindColonEnded | src/client/client.ts:156 | `findIndex` gives the first word ending with `:`, or -1 when there is none |
| Arguments.SpliceCount | src/client/client.ts:155-160 | the delete count never runs past the end; at index 0 or 1 it is the keyword plus its span; further in it is `start - 1` short of that, clamped at 0, so fewer words than the keyword claims are removed |
| Arguments.Remaining | src/client/client.ts:160 | splicing removes exactly `count` words and adds none |
| Arguments.ExtractOne | src/client/client.ts:152-164 | one turn never adds words; an absent keyword changes nothing; a present one adds exactly its key and leaves every other key's value alone |
| Arguments.ExtractAll | src/client/client.ts:152-164 | the whole loop never adds words, keeps every key, and adds only keys of the keyword tokens |
| Arguments.ValueSpan | src/client/client.ts:156-157 | the words a keyword claims run up to the next word ending with `:` |
| Arguments.FindColonEndedIsSpan | src/client/client.ts:156-157 | the `findIndex` position is that span, or -1 when the span runs to the end |
| Arguments.ExtractNearFront | src/client/client.ts:155-163 | with the keyword at index 0 or 1, one step removes the keyword and exactly its span, and sets the key to the span joined by spaces |
| Arguments.ExtractThirdKeyword | src/client/client.ts:160 | an example: in `x y b: bar`, the keyword `b:` is removed, its value word `bar` stays behind, and the value is empty |
| Arguments.Missing | src/client/client.ts:166-167 | the missing list holds exactly the required parameters that have no key |
| Arguments.Fallback | src/client/client.ts:169-176 | leftover words go to the one missing required parameter, which empties the missing list, else to the one optional parameter, which leaves the missing list as it was, else stay; at most one key changes, and it gets the leftover joined by spaces; when there are no leftover words or no single slot, the words, the arguments and the missing list are exactly as they were |
| Resolver.Resolution | src/client/client.ts:96-221 | resolution never drops a message; a dispatched command is in the catalog and matches the lower-cased first word, and the handler gets the colon-repaired text of the command's body |
| Resolver.Body | src/client/client.ts:114-118 | a singleton reads the whole text; any other command reads the text after its first word and space, or nothing when there is no space |
| Resolver.BodyDropsCommandWord | src/client/client.ts:114-118 | for `w + " " + rest` with a space-free command word `w`, a non-singleton reads exactly `rest` |
| Resolver.Parse | src/client/client.ts:119-176 | the keyword tokens are the command's tokens, one per declared parameter; the text read is the colon-repaired body, and it is settled; no more leftover words than the text has; only required parameters reported missing |
| Resolver.Decide | src/client/client.ts:178-221 | the decision is never a drop or "Unknown command"; it is a veto exactly for a restricted command whose requirement is unmet; a dispatch carries the command, the repaired text and the keys read |
| Resolver.UnknownIffNoMatch | src/client/client.ts:107-112 | "Unknown command" exactly when no command matches the lower-cased first word |
| Resolver.SingletonNeverUnknown | src/client/client.ts:102-112 | a singleton in the catalog rules out "Unknown command" |
| Resolver.FirstMatchWins | src/client/client.ts:107 | the dispatched command matches, and no earlier command does |
| Resolver.MatchPathIrrelevant | src/client/client.ts:99-118 | for a non-singleton, reaching the command by identifier or by alias gives the same outcome |
| Resolver.LowerCaseFirstWord | src/client/client.ts:97 | the lower-cased text's first word is the lower-cased first word |
| Resolver.VetoedIff | src/client/client.ts:179-184 | the gate vetoes exactly a matched restricted command whose requirement is not met |
| Resolver.UsageErrorIff | src/client/client.ts:186-201 | an unvetoed non-singleton is rejected exactly when a required parameter is missing or words are left over; the message counts the required parameters and gives an optional count only when there is more than one optional parameter |
| Resolver.SingletonNeverRejected | src/client/client.ts:186-192 | a singleton is either vetoed or dispatched |
| Resolver.DispatchWellFormed | src/client/client.ts:163-203 | the handler sees only declared names as keys, every required parameter of a non-singleton is present, and the first argument is a value of the map or the whole text |
| Resolver.ParseKeys | src/client/client.ts:150-176 | every key read from the text is a keyword name or a declared parameter name |
| Resolver.ParseNoParameters | src/client/client.ts:128-164 | a command without parameters has no keyword tokens and reads no argument |
| Resolver.FirstArgumentFound | src/client/client.ts:203 | the first argument is a value of the map or, when there are no keyword tokens and no arguments, the whole text; it is absent exactly when keyword tokens exist but no argument was read |
| Resolver.FirstArgumentSet | src/client/client.ts:163-203 | the first argument is the value of the first key set: a later `set` of another key leaves it alone, and the first `set`, or one that rewrites the first key, makes it that value, even an empty one |
| Resolver.FirstArgument | src/client/client.ts:203 | the first argument is absent exactly when there are keyword tokens and no argument was read |
| Resolver.NoParametersTakeWholeText | src/client/client.ts:203 | a command with no parameters gets an empty map, and its first argument is the colon-repaired text of its body |
| Resolver.DispatchDependencies | src/client/client.ts:205-213 | the dependency map holds exactly the found names, each mapped to the first command of that class |
| Client.Admit | src/client/client.ts:68-94 | the message is dropped exactly when it is from a bot or the bot itself, in an excluded channel, not calling the bot in a channel that requires the alias, or empty after the alias word is removed; what passes is normalised and non-empty |
| Client.AliasIsPrefixTest | src/client/client.ts:80-89 | any first word that begins with the alias calls the bot; that whole word is dropped, and the rest of the message, however many words and spaces it has, passes on normalised |
| Client.HandleMessage | src/client/client.ts:68-94 | the handler drops exactly what `Admit` drops, and otherwise resolves the admitted text |
| Client.ResolveCommandHandler | src/client/client.ts:96-118 | the handler's outcome is `Resolution` of the text, and never a drop |
| Client.ReadArguments | src/client/client.ts:120-176 | classifying, repairing, tokenising, extracting and falling back compute the parse of the command's text |
| Client.Conclude | src/client/client.ts:178-221 | the gate, the arity check and the handler's context compute the decision for the parse |
| Client.ExtractKeywords | src/client/client.ts:150-164 | the in-place extraction loop ends with the words and arguments of the extraction fold |
| Client.ExtractKeyword | src/client/client.ts:153-163 | one turn of the loop computes one extraction step |
| Client.SettleLeftovers | src/client/client.ts:166-176 | the fallback statements compute the fallback settlement |
| Teacher.Normalise | src/teacher/teacher.js:85 | the normalised text is lower-case, has no whitespace at either end, has no two spaces in a row, and is no longer than the message |
| Teacher.CollapseTidy | src/teacher/teacher.js:85 | collapsing the spaces of trimmed lower-case text makes it tidy |
| Teacher.NormaliseKeepsTidy | src/teacher/teacher.js:85 | text that is already tidy is left unchanged |
| Teacher.NormaliseIdempotent | src/teacher/teacher.js:85 | normalising twice is the same as normalising once |
| Teacher.StripPrefix | src/teacher/teacher.js:88-93 | text without the prefix is refused exactly outside unprefixed channels; what passes does not start with whitespace and is no longer than the text |
| Teacher.ExcludedSanitised | src/teacher/teacher.js:80 | a channel is excluded under its name exactly when it is excluded under its sanitised name |
| Teacher.ExcludedIgnoresPunctuation | src/teacher/teacher.js:80 | a character other than a letter or a digit, anywhere in a channel name, does not change whether the channel is excluded |
| Teacher.HandleMessage | src/teacher/teacher.js:68-93 | a message is dropped exactly when it is from a bot or the bot itself, in an excluded channel, or lacks the prefix outside an unprefixed channel; what passes does not start with whitespace and is no longer than the normalised text |
| Teacher.PrefixStripped | src/teacher/teacher.js:88-93 | tidy text that starts with the prefix loses exactly the prefix and the whitespace after it, and stays tidy |
| Teacher.TidyTail | src/teacher/teacher.js:93 | a tail of tidy text, left-trimmed, is tidy |
| Teacher.MidTextPrefixRemoved | src/teacher/teacher.js:93 | in an unprefixed channel, the first occurrence of the prefix is removed wherever it stands, then leading whitespace is trimmed |
| Teacher.MidTextRemovalDoublesSpace | src/teacher/teacher.js:85-93 | removing a prefix that stands between two spaces leaves two spaces in a row |
| Teacher.UnprefixedTextKept | src/teacher/teacher.js:88-93 | in an unprefixed channel, tidy text in which the prefix never occurs passes on unchanged |

## Left out

- Discord wiring is not modelled. This covers event registration, `login`, the guild fetch loop, and creating modules and services (src/client/client.ts:39-66). It is I/O.
- The output and lookup helpers (`send`, `info`, `warn`, `severe`, `autodelete`, `getMembers`, `getChannelsByName`) are left out. They are network I/O and timers. The model returns an `Outcome` where the code sends a warning.
- The usage text is not rendered (`Utils.pluralise`, `getUsage`). `UsageError` carries the two counts the text is built from.
- The requirement gate `isRequirementMet` is a boolean input. `restricted` is a field of `Command` standing for membership in `commandsRestricted`.
- The handler call is not modelled. The model stops at the context the handler would receive.
- The client's excluded-channel test (`string.sanitize` and `in config.excludedChannels`) is an opaque boolean input. Its library and configuration are not part of this model.
- The `message` object is not part of the handler's context in the model. It is passed through unchanged apart from its text.
- Client.Admit, Teacher.Normalise, Resolver.Resolution, Arguments.Tokenise: `toLowerCase` is modelled on ASCII letters only. Non-ASCII letters keep their case. This affects the alias test, the first word matched against the catalog (src/client/client.ts:97) and the folding of keyword tokens (src/client/client.ts:146).
- Teacher.Excluded: the `language.js` helper `removeNonAlphanumeric` is not part of this model. It is taken to keep the ASCII letters and digits.
- Catalog.OptionalName: an `optional:` entry with no space gives JavaScript's `undefined`. The model uses the string "undefined", which is what the keyword token becomes. The fallback at src/client/client.ts:174 sets the value `undefined` itself as a key, not the string. If the `undefined:` keyword was also read, JavaScript keeps two entries where the model keeps one. The handler's map and its first argument can then differ from the model's.
- GetWords: its own contract states only the shape of the words. That they are the text's non-space characters is stated by `Text.GetWordsKeepNonSpaces`.
- CollapseSpaces: its own contract states only the shape of the result. That every run of spaces becomes one space, and never none, is stated by `Text.CollapseKeepsWords`.
- The teacher client's module fan-out, with asynchronous `forEach` and swallowed exceptions, is left out (src/teacher/teacher.js:95-102), as are its other event handlers. They are concurrency and I/O. The model returns the text the modules would receive.
- A missing `message.member` (a null dereference in both clients) is not modelled. The member id is always present.

=== FILE: arguments.dfy ===
/**
 * Reading arguments out of the words of a message: keyword tokens (`name:`)
 * claim the words that follow them, and words no keyword claimed may fall
 * back to a single parameter.
 */
module Arguments {
  import opened Wrappers
  import opened Text
  import opened Catalog

  // ---------------------------------------------------------------- the argument map

  /** One entry of the `args` map. */
  datatype Binding = Binding(key: string, value: string)

  /** A JavaScript `Map<string, string>`: entries in insertion order. */
  type Args = seq<Binding>

  function Keys(args: Args): set<string>
  {
    if args == [] then {} else {args[0].key} + Keys(args[1..])
  }

  function Lookup(args: Args, k: string): (r: Option<string>)
    ensures r.Some? <==> k in Keys(args)
  {
    if args == [] then None
    else if args[0].key == k then Some(args[0].value)
    else Lookup(args[1..], k)
  }

  predicate DistinctKeys(args: Args)
  {
    forall i, j :: 0 <= i < j < |args| ==> args[i].key != args[j].key
  }

  /** `args.set(k, v)`: an existing key keeps its place and takes the new value; a new key goes last. */
  function Set(args: Args, k: string, v: string): (r: Args)
    ensures Keys(r) == Keys(args) + {k}
    ensures Lookup(r, k) == Some(v)
    ensures forall k' :: k' != k ==> Lookup(r, k') == Lookup(args, k')
    ensures args != [] ==> r[0].key == args[0].key && (args[0].key != k ==> r[0] == args[0])
  {
    if args == [] then [Binding(k, v)]
    else if args[0].key == k then [Binding(k, v)] + args[1..]
    else
      var rest := Set(args[1..], k, v);
      var r := [args[0]] + rest;
      assert r[0] == args[0] && r[1..] == rest;
      r
  }

  /** Setting a key never duplicates one. */
  lemma {:induction false} SetDistinct(args: Args, k: string, v: string)
    requires DistinctKeys(args)
    ensures DistinctKeys(Set(args, k, v))
  {
    if args != [] && args[0].key != k {
      var rest := Set(args[1..], k, v);
      assert DistinctKeys(args[1..]) by {
        assert forall i :: 0 <= i < |args| - 1 ==> args[1..][i] == args[i + 1];
      }
      SetDistinct(args[1..], k, v);
      KeysIndexed(args[1..]);
      KeysIndexed(rest);
      assert args[0].key !in Keys(args[1..]) by {
        assert forall i :: 0 <= i < |args| - 1 ==> args[1..][i].key != args[0].key;
      }
      var r := Set(args, k, v);
      assert r == [args[0]] + rest;
      forall i, j | 0 <= i < j < |r| ensures r[i].key != r[j].key {
        if i == 0 {
          assert r[j] == rest[j - 1];
          assert r[j].key in Keys(rest);
        } else {
          assert r[i] == rest[i - 1] && r[j] == rest[j - 1];
        }
      }
    }
  }

  lemma {:induction false} KeysIndexed(args: Args)
    ensures forall k :: k in Keys(args) <==> exists i :: 0 <= i < |args| && args[i].key == k
  {
    if args != [] {
      KeysIndexed(args[1..]);
      assert forall i :: 1 <= i < |args| ==> args[i] == args[1..][i - 1];
    }
  }

  /** The `Map` as the handler reads it. */
  function ToMap(args: Args): (m: map<string, string>)
    ensures m.Keys == Keys(args)
    ensures forall k :: k in m ==> Lookup(args, k) == Some(m[k])
  {
    map k | k in Keys(args) :: Lookup(args, k).value
  }

  /** What the handler sees of `Map.set`: the key is bound to the new value and nothing else changes. */
  lemma ToMapSet(args: Args, k: string, v: string)
    ensures ToMap(Set(args, k, v)) == ToMap(args)[k := v]
  {
  }

  // ---------------------------------------------------------------- words

  /** A word is lower-cased only when its lower-case form is one of the keyword tokens. */
  function Fold(word: string, parsable: seq<string>): string
  {
    if LowerCase(word) in parsable then LowerCase(word) else word
  }

  /** `Utils.getWords(content)` with the keyword tokens folded to lower case. */
  function Tokenise(content: string, parsable: seq<string>): (words: seq<string>)
    ensures |words| == |GetWords(content)|
    ensures forall i :: 0 <= i < |words| ==> words[i] != "" && ' ' !in words[i]
    ensures forall i :: 0 <= i < |words| && LowerCase(GetWords(content)[i]) !in parsable ==> words[i] == GetWords(content)[i]
    ensures forall i :: 0 <= i < |words| ==> LowerCase(words[i]) == LowerCase(GetWords(content)[i])
    ensures forall i :: 0 <= i < |words| && LowerCase(GetWords(content)[i]) in parsable ==> words[i] == LowerCase(GetWords(content)[i])
  {
    var plain := GetWords(content);
    LowerCaseIdempotentAll(plain);
    seq(|plain|, i requires 0 <= i < |plain| => Fold(plain[i], parsable))
  }

  lemma LowerCaseIdempotentAll(words: seq<string>)
    ensures forall i :: 0 <= i < |words| ==> LowerCase(LowerCase(words[i])) == LowerCase(words[i])
  {
    forall i | 0 <= i < |words| {
      LowerCaseIdempotent(words[i]);
    }
  }

  /** `words.indexOf(token)`. */
  function IndexOf(words: seq<string>, token: string): (r: nat)
    requires token in words
    ensures r < |words| && words[r] == token
    ensures forall j :: 0 <= j < r ==> words[j] != token
  {
    if words[0] == token then 0
    else
      var r := IndexOf(words[1..], token);
      assert forall j :: 1 <= j < |words| ==> words[j] == words[1..][j - 1];
      1 + r
  }

  /** `words.findIndex((word) => word.endsWith(':'))`: -1 when no word ends with a colon. */
  function FindColonEnded(words: seq<string>): (r: int)
    ensures -1 <= r < |words|
    ensures r >= 0 ==> EndsWithColon(words[r])
    ensures r >= 0 ==> forall j :: 0 <= j < r ==> !EndsWithColon(words[j])
    ensures r == -1 ==> forall j :: 0 <= j < |words| ==> !EndsWithColon(words[j])
  {
    if words == [] then -1
    else if EndsWithColon(words[0]) then 0
    else
      var r := FindColonEnded(words[1..]);
      assert forall j :: 1 <= j < |words| ==> words[j] == words[1..][j - 1];
      if r == -1 then -1 else 1 + r
  }

  /** The delete count `splice` ends up using: JavaScript clamps it to `[0, length - start]`. */
  function Clamp(n: int, hi: nat): (r: nat)
    ensures r <= hi
    ensures 0 <= n <= hi ==> r == n
  {
    if n < 0 then 0 else if n > hi then hi else n
  }

  /**
   * The number of words removed for a keyword found at `start`: `end` counts
   * the keyword and its value words, and the count subtracts `start - 1`
   * whenever `start` is not 0. At index 0 or 1 that is exactly the keyword and
   * its span; further in it falls `start - 1` short, and when the span has at
   * most `start - 2` words not even the keyword is removed.
   */
  function SpliceCount(words: seq<string>, start: nat): (r: nat)
    requires start < |words|
    ensures r <= |words| - start
    ensures start < 2 ==> r == ValueSpan(words[start + 1..]) + 1
    ensures start >= 2 ==> r == Clamp(ValueSpan(words[start + 1..]) + 2 - start, |words| - start)
    ensures start >= 2 ==> r < ValueSpan(words[start + 1..]) + 1
    ensures start >= 2 && ValueSpan(words[start + 1..]) + 2 <= start ==> r == 0
  {
    FindColonEndedIsSpan(words[start + 1..]);
    var found := FindColonEnded(words[start + 1..]);
    var end := if found == -1 then |words[start..]| else found + 1;
    Clamp(end - (if start != 0 then start - 1 else start), |words| - start)
  }

  /** The words not yet claimed, and the arguments read so far. */
  datatype Pool = Pool(words: seq<string>, args: Args)

  /** The words `words.splice(start, count)` leaves behind. */
  function Remaining(words: seq<string>, start: nat, count: nat): (r: seq<string>)
    requires start + count <= |words|
    ensures |r| == |words| - count
    ensures multiset(r) <= multiset(words)
  {
    assert words == words[..start] + words[start..start + count] + words[start + count..];
    words[..start] + words[start + count..]
  }

  /** The removed words after the first, joined by single spaces: `extracted.shift(); extracted.join(' ')`. */
  function ValueOf(extracted: seq<string>): string
  {
    Join(if extracted == [] then [] else extracted[1..], " ")
  }

  /** One turn of the extraction loop, for one keyword token. */
  function ExtractOne(p: Pool, token: string): (q: Pool)
    ensures |q.words| <= |p.words|
    ensures multiset(q.words) <= multiset(p.words)
    ensures token !in p.words ==> q == p
    ensures token in p.words ==> Keys(q.args) == Keys(p.args) + {KeyOf(token)}
    ensures forall k :: k != KeyOf(token) ==> Lookup(q.args, k) == Lookup(p.args, k)
  {
    if token !in p.words then p else Claim(p, token, IndexOf(p.words, token))
  }

  /** The splice and the `set` for a keyword found at `start`. */
  function Claim(p: Pool, token: string, start: nat): (q: Pool)
    requires start < |p.words|
  {
    var count := SpliceCount(p.words, start);
    Pool(Remaining(p.words, start, count), Set(p.args, KeyOf(token), ValueOf(p.words[start..start + count])))
  }

  function KeysOf(tokens: seq<string>): set<string>
  {
    set t | t in tokens :: KeyOf(t)
  }

  /** The whole extraction loop: one turn per keyword token, in the order given. */
  function ExtractAll(p: Pool, tokens: seq<string>): (q: Pool)
    ensures |q.words| <= |p.words|
    ensures multiset(q.words) <= multiset(p.words)
    ensures Keys(p.args) <= Keys(q.args) <= Keys(p.args) + KeysOf(tokens)
    decreases tokens
  {
    if tokens == [] then p
    else
      var q := ExtractAll(ExtractOne(p, tokens[0]), tokens[1..]);
      assert KeysOf(tokens) == {KeyOf(tokens[0])} + KeysOf(tokens[1..]);
      q
  }

  lemma ExtractAllStep(p: Pool, tokens: seq<string>)
    requires tokens != []
    ensures ExtractAll(p, tokens) == ExtractAll(ExtractOne(p, tokens[0]), tokens[1..])
  {
  }

  /** How many words follow before the next word that ends with a colon. */
  function ValueSpan(words: seq<string>): (n: nat)
    ensures n <= |words|
    ensures forall j :: 0 <= j < n ==> !EndsWithColon(words[j])
    ensures n == |words| || EndsWithColon(words[n])
  {
    if words == [] || EndsWithColon(words[0]) then 0
    else
      var n := ValueSpan(words[1..]);
      assert forall j :: 1 <= j <= n ==> words[j] == words[1..][j - 1];
      1 + n
  }

  lemma FindColonEndedIsSpan(words: seq<string>)
    ensures FindColonEnded(words) == if ValueSpan(words) == |words| then -1 else ValueSpan(words)
  {
    var f, n := FindColonEnded(words), ValueSpan(words);
    if f >= 0 {
      assert n <= f;
    }
  }

  /**
   * With the keyword at index 0 or 1, the step removes exactly the keyword and
   * the words up to the next word ending with a colon, and stores those words
   * joined by single spaces.
   */
  lemma ExtractNearFront(p: Pool, token: string, s: nat, n: nat)
    requires token in p.words && s == IndexOf(p.words, token) && s <= 1
    requires n == ValueSpan(p.words[s + 1..])
    ensures s + 1 + n <= |p.words|
    ensures ExtractOne(p, token)
              == Pool(p.words[..s] + p.words[s + 1 + n..], Set(p.args, KeyOf(token), Join(p.words[s + 1..s + 1 + n], " ")))
  {
    ValueOfBlock(p.words, s, n);
    ClaimParts(p, token, s, n);
  }

  /** What a claim at `s` leaves and records, in terms of the delete count. */
  lemma ClaimOf(p: Pool, token: string, s: nat, c: nat)
    requires s < |p.words| && SpliceCount(p.words, s) == c
    ensures Claim(p, token, s) == Pool(p.words[..s] + p.words[s + c..], Set(p.args, KeyOf(token), ValueOf(p.words[s..s + c])))
  {
  }

  /** What a claim of the keyword and `n` more words at `s` leaves and records. */
  lemma ClaimParts(p: Pool, token: string, s: nat, n: nat)
    requires s + 1 + n <= |p.words| && SpliceCount(p.words, s) == n + 1
    ensures Claim(p, token, s) == Pool(p.words[..s] + p.words[s + 1 + n..], Set(p.args, KeyOf(token), ValueOf(p.words[s..s + 1 + n])))
  {
    ClaimOf(p, token, s, n + 1);
  }

  /** The value read from a removed block is the block after its first word, joined. */
  lemma ValueOfBlock(words: seq<string>, s: nat, n: nat)
    requires s + 1 + n <= |words|
    ensures ValueOf(words[s..s + 1 + n]) == Join(words[s + 1..s + 1 + n], " ")
  {
    assert words[s..s + 1 + n][1..] == words[s + 1..s + 1 + n];
  }

  /**
   * Further in, the step removes fewer words than the keyword claims: with the
   * keyword third, its only value word is left behind and the value is empty.
   */
  lemma ExtractThirdKeyword()
    ensures ExtractOne(Pool(["x", "y", "b:", "bar"], []), "b:") == Pool(["x", "y", "bar"], [Binding("b", "")])
  {
    var words: seq<string> := ["x", "y", "b:", "bar"];
    ThirdKeywordSplice(words);
    ThirdKeywordParts(words);
    ThirdKeywordKey();
  }

  lemma ThirdKeywordKey()
    ensures Set([], KeyOf("b:"), "") == [Binding("b", "")]
  {
    KeyOfPlain("b");
    assert "b" + ":" == "b:";
  }

  lemma ThirdKeywordParts(words: seq<string>)
    requires words == ["x", "y", "b:", "bar"]
    ensures ValueOf(words[2..3]) == "" && Remaining(words, 2, 1) == ["x", "y", "bar"]
  {
    assert words[2..3] == ["b:"];
    assert words[..2] == ["x", "y"] && words[3..] == ["bar"];
  }

  lemma ThirdKeywordSplice(words: seq<string>)
    requires words == ["x", "y", "b:", "bar"]
    ensures "b:" in words && IndexOf(words, "b:") == 2 && SpliceCount(words, 2) == 1
  {
    assert words[2] == "b:";
    assert words[0] != "b:" && words[1] != "b:" && words[3] != "b:";
    assert words[3..] == ["bar"];
    assert !EndsWithColon("bar");
    assert FindColonEnded(words[3..]) == -1;
  }

  // ---------------------------------------------------------------- fallback

  /** `parametersRequired.filter((parameter) => !providedArgs.includes(parameter))`. */
  function Missing(required: seq<string>, args: Args): (r: seq<string>)
    ensures |r| <= |required|
    ensures forall i :: 0 <= i < |r| ==> r[i] in required && r[i] !in Keys(args)
    ensures forall i :: 0 <= i < |required| && required[i] !in Keys(args) ==> required[i] in r
  {
    if required == [] then []
    else (if required[0] in Keys(args) then [] else [required[0]]) + Missing(required[1..], args)
  }

  /** The words left over, the arguments, and the required parameters still missing. */
  datatype Settlement = Settlement(words: seq<string>, args: Args, missing: seq<string>)

  /** Leftover words go to the one missing required parameter, else to the one optional parameter. */
  function Fallback(words: seq<string>, args: Args, required: seq<string>, optional: seq<string>): (s: Settlement)
    ensures s.words == [] || s.words == words
    ensures s.words == [] <==> words == [] || |Missing(required, args)| == 1 || |optional| == 1
    ensures forall k :: Lookup(s.args, k) != Lookup(args, k) ==> Lookup(s.args, k) == Some(Join(words, " "))
    ensures forall k, k' :: Lookup(s.args, k) != Lookup(args, k) && Lookup(s.args, k') != Lookup(args, k') ==> k == k'
    ensures Keys(args) <= Keys(s.args)
    ensures forall k :: k in Keys(s.args) && k !in Keys(args) ==> k in required || k in optional
    ensures words != [] && |Missing(required, args)| == 1 ==>
      Lookup(s.args, Missing(required, args)[0]) == Some(Join(words, " ")) && s.missing == []
    ensures words != [] && |Missing(required, args)| != 1 && |optional| == 1 ==>
      Lookup(s.args, optional[0]) == Some(Join(words, " ")) && s.missing == Missing(required, args)
    ensures forall i :: 0 <= i < |s.missing| ==> s.missing[i] in required
    ensures forall i :: 0 <= i < |required| && required[i] !in Keys(s.args) ==> required[i] in s.missing
    ensures words == [] || (|Missing(required, args)| != 1 && |optional| != 1) ==>
      s == Settlement(words, args, Missing(required, args))
  {
    var missing := Missing(required, args);
    if |words| != 0 && |missing| == 1 then
      Settlement([], Set(args, missing[0], Join(words, " ")), [])
    else if |words| != 0 && |optional| == 1 then
      Settlement([], Set(args, optional[0], Join(words, " ")), missing)
    else
      Settlement(words, args, missing)
  }
}

=== FILE: catalog.dfy ===
/**
 * The command catalog: what a command declares, how the leading word of a
 * message selects one, how its declared parameters split into required and
 * optional ones, and how its dependencies are looked up among its siblings.
 */
module Catalog {
  import opened Wrappers
  import opened Text

  /**
   * One command of the catalog. `dependencies` holds the class names the
   * handler asks for (`Utils.getNameOfClass` already applied), `className` is
   * the command's own class name, and `restricted` says whether its module
   * lists it among `commandsRestricted`.
   */
  datatype Command = Command(
    identifier: string,
    aliases: seq<string>,
    parameters: seq<string>,
    dependencies: seq<string>,
    className: string,
    restricted: bool)

  /** A singleton command takes the whole message and is matched by every word. */
  predicate IsSingleton(c: Command) { StartsWith(c.identifier, "$") }

  /** The matcher predicate: identifier, alias, or singleton. */
  predicate Matches(c: Command, firstWord: string)
  {
    firstWord == c.identifier || firstWord in c.aliases || IsSingleton(c)
  }

  function FindCommandFrom(commands: seq<Command>, firstWord: string, from: nat): (r: Option<nat>)
    requires from <= |commands|
    decreases |commands| - from
    ensures r.Some? ==> from <= r.value < |commands| && Matches(commands[r.value], firstWord)
    ensures r.Some? ==> forall j :: from <= j < r.value ==> !Matches(commands[j], firstWord)
    ensures r.None? ==> forall j :: from <= j < |commands| ==> !Matches(commands[j], firstWord)
  {
    if from == |commands| then None
    else if Matches(commands[from], firstWord) then Some(from)
    else FindCommandFrom(commands, firstWord, from + 1)
  }

  /** `commands.find(commandMatchesQuery)`, as the index of the first command that matches. */
  function FindCommand(commands: seq<Command>, firstWord: string): (r: Option<nat>)
    ensures r.Some? ==> r.value < |commands| && Matches(commands[r.value], firstWord)
    ensures r.Some? ==> forall j :: 0 <= j < r.value ==> !Matches(commands[j], firstWord)
    ensures r.None? <==> forall j :: 0 <= j < |commands| ==> !Matches(commands[j], firstWord)
  {
    FindCommandFrom(commands, firstWord, 0)
  }

  /** A singleton anywhere in the catalog makes every word match, at that singleton or earlier. */
  lemma SingletonShadows(commands: seq<Command>, firstWord: string, k: nat)
    requires k < |commands| && IsSingleton(commands[k])
    ensures FindCommand(commands, firstWord).Some?
    ensures FindCommand(commands, firstWord).value <= k
  {
    assert Matches(commands[k], firstWord);
  }

  // ---------------------------------------------------------------- parameters

  predicate IsOptional(parameter: string) { StartsWith(parameter, "optional:") }

  /**
   * `parameter.split(' ')[1]`: the name after `optional:`. A declaration with
   * no space yields JavaScript's `undefined`, which becomes "undefined" once
   * it is turned into a keyword.
   */
  function OptionalName(parameter: string): string
  {
    var parts := Split(parameter, ' ');
    if |parts| > 1 then parts[1] else "undefined"
  }

  /** The declared parameters without the `optional:` prefix, in declaration order. */
  function RequiredParameters(parameters: seq<string>): (r: seq<string>)
    ensures |r| <= |parameters|
    ensures forall i :: 0 <= i < |r| ==> r[i] in parameters && !IsOptional(r[i])
    ensures forall i :: 0 <= i < |parameters| && !IsOptional(parameters[i]) ==> parameters[i] in r
  {
    if parameters == [] then []
    else (if IsOptional(parameters[0]) then [] else [parameters[0]]) + RequiredParameters(parameters[1..])
  }

  /** The names of the parameters declared `optional: <name>`, in declaration order. */
  function OptionalParameters(parameters: seq<string>): (r: seq<string>)
    ensures |r| <= |parameters|
    ensures forall i :: 0 <= i < |parameters| && IsOptional(parameters[i]) ==> OptionalName(parameters[i]) in r
  {
    if parameters == [] then []
    else
      var rest := OptionalParameters(parameters[1..]);
      assert forall j :: 0 <= j < |parameters| - 1 ==> parameters[1..][j] == parameters[j + 1];
      (if IsOptional(parameters[0]) then [OptionalName(parameters[0])] else []) + rest
  }

  /** `name` is read from one of the declarations that start with `optional:`. */
  predicate DeclaredOptional(parameters: seq<string>, name: string)
  {
    exists j :: 0 <= j < |parameters| && IsOptional(parameters[j]) && name == OptionalName(parameters[j])
  }

  /** Every optional name is read from a declaration that starts with `optional:`. */
  lemma OptionalNamesDeclared(parameters: seq<string>)
    ensures forall i :: 0 <= i < |OptionalParameters(parameters)| ==> DeclaredOptional(parameters, OptionalParameters(parameters)[i])
  {
    forall i | 0 <= i < |OptionalParameters(parameters)|
      ensures DeclaredOptional(parameters, OptionalParameters(parameters)[i])
    {
      var j := OptionalDeclaredAt(parameters, i);
    }
  }

  /** The declaration the `i`-th optional name is read from. */
  lemma {:induction false} OptionalDeclaredAt(parameters: seq<string>, i: nat) returns (j: nat)
    requires i < |OptionalParameters(parameters)|
    ensures j < |parameters| && IsOptional(parameters[j]) && OptionalParameters(parameters)[i] == OptionalName(parameters[j])
  {
    var rest := OptionalParameters(parameters[1..]);
    var head := if IsOptional(parameters[0]) then [OptionalName(parameters[0])] else [];
    assert OptionalParameters(parameters) == head + rest;
    if i < |head| {
      j := 0;
    } else {
      var k := OptionalDeclaredAt(parameters[1..], i - |head|);
      assert parameters[1..][k] == parameters[k + 1];
      j := k + 1;
    }
  }

  /** Every declared parameter lands in exactly one of the two lists. */
  lemma {:induction false} ClassificationPartitions(parameters: seq<string>)
    ensures |RequiredParameters(parameters)| + |OptionalParameters(parameters)| == |parameters|
  {
    if parameters != [] {
      ClassificationPartitions(parameters[1..]);
    }
  }

  /** Classification works entry by entry, so it keeps the declaration order within each list. */
  lemma {:induction false} RequiredOrdered(a: seq<string>, b: seq<string>)
    ensures RequiredParameters(a + b) == RequiredParameters(a) + RequiredParameters(b)
  {
    if a == [] {
      assert a + b == b;
    } else {
      var ab := a + b;
      assert ab[0] == a[0] && ab[1..] == a[1..] + b;
      RequiredOrdered(a[1..], b);
      var head := if IsOptional(a[0]) then [] else [a[0]];
      calc {
        RequiredParameters(ab);
        head + RequiredParameters(ab[1..]);
        head + (RequiredParameters(a[1..]) + RequiredParameters(b));
        (head + RequiredParameters(a[1..])) + RequiredParameters(b);
      }
    }
  }

  lemma {:induction false} OptionalOrdered(a: seq<string>, b: seq<string>)
    ensures OptionalParameters(a + b) == OptionalParameters(a) + OptionalParameters(b)
  {
    if a == [] {
      assert a + b == b;
    } else {
      var ab := a + b;
      assert ab[0] == a[0] && ab[1..] == a[1..] + b;
      OptionalOrdered(a[1..], b);
      var head := if IsOptional(a[0]) then [OptionalName(a[0])] else [];
      calc {
        OptionalParameters(ab);
        head + OptionalParameters(ab[1..]);
        head + (OptionalParameters(a[1..]) + OptionalParameters(b));
        (head + OptionalParameters(a[1..])) + OptionalParameters(b);
      }
    }
  }

  /** `parameters.map((parameter) => parameter + ':')`. */
  function Parsable(names: seq<string>): (r: seq<string>)
    ensures |r| == |names|
    ensures forall i :: 0 <= i < |r| ==> r[i] == names[i] + ":"
  {
    seq(|names|, i requires 0 <= i < |names| => names[i] + ":")
  }

  /** The keyword tokens a command listens for: required ones first, then optional ones. */
  function Keywords(parameters: seq<string>): seq<string>
  {
    Parsable(RequiredParameters(parameters) + OptionalParameters(parameters))
  }

  /** The keyword list is the required names, then the optional names, each followed by a colon. */
  lemma KeywordsLayout(parameters: seq<string>)
    ensures |Keywords(parameters)| == |parameters|
    ensures Keywords(parameters) == Parsable(RequiredParameters(parameters)) + Parsable(OptionalParameters(parameters))
  {
    ClassificationPartitions(parameters);
    ParsableAppend(RequiredParameters(parameters), OptionalParameters(parameters));
  }

  lemma ParsableAppend(a: seq<string>, b: seq<string>)
    ensures Parsable(a + b) == Parsable(a) + Parsable(b)
  {
    var l, r := Parsable(a + b), Parsable(a) + Parsable(b);
    assert |l| == |r|;
    forall i | 0 <= i < |l| ensures l[i] == r[i] {
      if i < |a| {
        assert (a + b)[i] == a[i];
      } else {
        assert (a + b)[i] == b[i - |a|];
      }
    }
  }

  /** `parameter.replace(':', '')`: the keyword token with its first colon removed. */
  function KeyOf(token: string): (r: string)
    ensures ':' !in token ==> r == token
    ensures ':' in token ==> |r| + 1 == |token|
  {
    ColonOccurs(token);
    ReplaceFirst(token, ":")
  }

  /** The pattern `":"` occurs in a text exactly where the text holds a colon. */
  lemma ColonOccurs(token: string)
    ensures ':' in token <==> exists j: nat :: OccursAt(token, ":", j)
  {
    if ':' in token {
      var j :| 0 <= j < |token| && token[j] == ':';
      assert token[j..j + 1] == ":";
      assert OccursAt(token, ":", j);
    } else {
      forall j: nat
        ensures !OccursAt(token, ":", j)
      {
        if j + 1 <= |token| {
          assert token[j..j + 1][0] == token[j];
        }
      }
    }
  }

  /** Making a token and reading its key back gives the name, for every name without a colon. */
  lemma ParsableKeys(names: seq<string>)
    ensures forall i :: 0 <= i < |names| && ':' !in names[i] ==> KeyOf(Parsable(names)[i]) == names[i]
  {
    forall i | 0 <= i < |names| && ':' !in names[i]
      ensures KeyOf(Parsable(names)[i]) == names[i]
    {
      KeyOfPlain(names[i]);
    }
  }

  /** For a parameter name without a colon, the key written is the name itself. */
  lemma KeyOfPlain(name: string)
    requires ':' !in name
    ensures KeyOf(name + ":") == name
  {
    var t := name + ":";
    forall j | 0 <= j < |name|
      ensures !OccursAt(t, ":", j)
    {
      assert t[j..j + 1] == [name[j]];
    }
    assert t[|name|..|name| + 1] == ":";
    ReplaceFirstAt(t, ":", |name|);
    assert t[..|name|] == name;
  }

  // ---------------------------------------------------------------- dependencies

  /** `commands.find((command) => getNameOfClass(command) === name)`. */
  function FindByClass(commands: seq<Command>, name: string): (r: Option<Command>)
    ensures r.None? <==> forall i :: 0 <= i < |commands| ==> commands[i].className != name
    ensures r.Some? ==> r.value in commands && r.value.className == name
  {
    if commands == [] then None
    else if commands[0].className == name then Some(commands[0])
    else
      var r := FindByClass(commands[1..], name);
      assert forall i :: 1 <= i < |commands| ==> commands[i] == commands[1..][i - 1];
      r
  }

  /** The first catalog command carrying a class name is the one `FindByClass` returns. */
  lemma FindByClassFirst(commands: seq<Command>, name: string, k: nat)
    requires k < |commands| && commands[k].className == name
    requires forall j :: 0 <= j < k ==> commands[j].className != name
    ensures FindByClass(commands, name) == Some(commands[k])
  {
    if k > 0 {
      FindByClassFirst(commands[1..], name, k - 1);
    }
  }

  /** The `[dependency, command]` pairs that were found, in the order they were asked for. */
  function FoundDependencies(needed: seq<string>, commands: seq<Command>): seq<(string, Command)>
  {
    if needed == [] then []
    else
      (match FindByClass(commands, needed[0])
       case None => []
       case Some(c) => [(needed[0], c)])
      + FoundDependencies(needed[1..], commands)
  }

  /** `new Map(pairs)`: later pairs overwrite earlier ones with the same key. */
  function MapOfPairs(pairs: seq<(string, Command)>): map<string, Command>
  {
    if pairs == [] then map[]
    else map[pairs[0].0 := pairs[0].1] + MapOfPairs(pairs[1..])
  }

  /** The dependency map holds exactly the asked-for names some command carries, each mapped to the first such command. */
  function Dependencies(needed: seq<string>, commands: seq<Command>): (r: map<string, Command>)
    ensures forall d :: d in r <==> d in needed && FindByClass(commands, d).Some?
    ensures forall d :: d in r ==> r[d] == FindByClass(commands, d).value
  {
    FoundPairsExact(needed, commands);
    MapOfPairs(FoundDependencies(needed, commands))
  }

  lemma {:induction false} FoundPairsExact(needed: seq<string>, commands: seq<Command>)
    ensures forall d :: d in MapOfPairs(FoundDependencies(needed, commands)) <==> d in needed && FindByClass(commands, d).Some?
    ensures forall d :: d in MapOfPairs(FoundDependencies(needed, commands)) ==>
      MapOfPairs(FoundDependencies(needed, commands))[d] == FindByClass(commands, d).value
  {
    if needed != [] {
      FoundPairsExact(needed[1..], commands);
      var found := FoundDependencies(needed, commands);
      var rest := FoundDependencies(needed[1..], commands);
      match FindByClass(commands, needed[0])
      case None =>
        assert found == rest;
      case Some(c) =>
        assert found == [(needed[0], c)] + rest;
        assert found[1..] == rest;
      assert forall d :: d in needed <==> d == needed[0] || d in needed[1..];
    }
  }
}

=== FILE: client.dfy ===
/**
 * The bot client's message path: the gate that decides whether a chat
 * message is addressed to the bot, and the resolver that turns the rest of
 * the message into a command invocation.
 */
module Client {
  import opened Wrappers
  import opened Text
  import opened Catalog
  import opened Repair
  import opened Arguments
  import opened Resolver

  /** The parts of a guild message the client reads. */
  datatype GuildMessage = GuildMessage(authorIsBot: bool, memberId: string, channelName: string, content: string)

  /** The configured invocation alias and the channels where it may be left out. */
  datatype Config = Config(alias: string, aliaslessChannels: seq<string>)

  /**
   * The text `handleMessage` passes on, or `None` when it returns early.
   * `inExcludedChannel` is the outcome of the configuration's excluded-channel
   * test on the sanitised channel name.
   */
  function Admit(message: GuildMessage, botId: string, inExcludedChannel: bool, config: Config): (r: Option<string>)
    ensures message.authorIsBot || message.memberId == botId || inExcludedChannel ==> r.None?
    ensures var n := NormaliseSpaces(message.content);
            var calling := StartsWith(LowerCase(n), config.alias);
            var aliasless := message.channelName in config.aliaslessChannels;
            (r.None? <==> message.authorIsBot || message.memberId == botId || inExcludedChannel
                          || (if calling then ' ' !in n else !aliasless || n == "")) &&
            (r.Some? ==> r.value != "" && SpacesNormalised(r.value)) &&
            (r.Some? && calling ==> n == FirstWord(n) + " " + r.value) &&
            (r.Some? && !calling ==> r.value == n)
  {
    if message.authorIsBot then None
    else if message.memberId == botId then None
    else if inExcludedChannel then None
    else
      var content := NormaliseSpaces(message.content);
      var inAliaslessChannel := message.channelName in config.aliaslessChannels;
      var isCallingBot := StartsWith(LowerCase(content), config.alias);
      if !isCallingBot && !inAliaslessChannel then None
      else if isCallingBot then
        if ' ' in content then
          RemoveFirstWordNormalised(content);
          Some(RemoveFirstWord(content))
        else None
      else if content == "" then None
      else Some(content)
  }

  /**
   * The alias test is a prefix test on the whole lower-cased text: a first
   * word that merely begins with the alias ("lunatic" for "luna") addresses
   * the bot, and that whole word is dropped; the rest of the message passes
   * on with its spaces normalised.
   */
  lemma AliasIsPrefixTest(message: GuildMessage, botId: string, config: Config, w: string, rest: string)
    requires !message.authorIsBot && message.memberId != botId
    requires w != "" && ' ' !in w && GetWords(rest) != []
    requires message.content == w + " " + rest
    requires StartsWith(LowerCase(w), config.alias)
    ensures Admit(message, botId, false, config) == Some(NormaliseSpaces(rest))
  {
    var tail := NormaliseSpaces(rest);
    NormaliseAfterWord(w, rest);
    AliasInFirstWord(w, tail, config.alias);
    FirstWordOf(w, tail);
    assert (w + " " + tail)[|w|] == ' ';
    CallingAdmitted(message, botId, config);
  }

  lemma AliasInFirstWord(w: string, rest: string, alias: string)
    requires StartsWith(LowerCase(w), alias)
    ensures StartsWith(LowerCase(w + " " + rest), alias)
  {
    LowerCaseAppend(w, " " + rest);
    assert w + " " + rest == w + (" " + rest);
    assert LowerCase(w + (" " + rest))[..|alias|] == LowerCase(w)[..|alias|];
  }

  /** A message that passes the filters and calls the bot loses its first word. */
  lemma CallingAdmitted(message: GuildMessage, botId: string, config: Config)
    requires !message.authorIsBot && message.memberId != botId
    requires StartsWith(LowerCase(NormaliseSpaces(message.content)), config.alias)
    requires ' ' in NormaliseSpaces(message.content)
    ensures Admit(message, botId, false, config) == Some(RemoveFirstWord(NormaliseSpaces(message.content)))
  {
  }

  /** `Client.handleMessage`: filters, space normalisation, alias check and strip, then resolution. */
  method HandleMessage(message: GuildMessage, botId: string, inExcludedChannel: bool, config: Config,
                       commands: seq<Command>, requirementMet: bool) returns (o: Outcome)
    ensures o == Dropped <==> Admit(message, botId, inExcludedChannel, config).None?
    ensures Admit(message, botId, inExcludedChannel, config).Some? ==>
      o == Resolution(commands, Admit(message, botId, inExcludedChannel, config).value, requirementMet)
  {
    if message.authorIsBot {
      return Dropped;
    }
    if message.memberId == botId {
      return Dropped;
    }
    if inExcludedChannel {
      return Dropped;
    }
    var content := NormaliseSpaces(message.content);
    var inAliaslessChannel := message.channelName in config.aliaslessChannels;
    var isCallingBot := StartsWith(LowerCase(content), config.alias);
    if !isCallingBot && !inAliaslessChannel {
      return Dropped;
    }
    if isCallingBot {
      content := RemoveFirstWord(content);
    }
    if |content| == 0 {
      return Dropped;
    }
    o := ResolveCommandHandler(commands, content, requirementMet);
  }

  /**
   * `Client.resolveCommandHandler`: match, drop the command word, read the
   * arguments, then gate, check arity and build the handler's context.
   */
  method ResolveCommandHandler(commands: seq<Command>, messageContent: string, requirementMet: bool)
    returns (o: Outcome)
    ensures o == Resolution(commands, messageContent, requirementMet)
    ensures o != Dropped
  {
    var content := messageContent;
    var firstWord := Split(LowerCase(content), ' ')[0];
    var matched := FindCommand(commands, firstWord);
    if matched.None? {
      return UnknownCommand;
    }
    var command := commands[matched.value];
    if !IsSingleton(command) {
      content := RemoveFirstWord(content);
    }
    var parsed := ReadArguments(command, content);
    o := Conclude(commands, command, parsed, requirementMet);
  }

  /**
   * The middle of `resolveCommandHandler`: classify the parameters, repair
   * the text, tokenise it, extract the keyword arguments in place and fall
   * back for the leftover words.
   */
  method ReadArguments(command: Command, body: string) returns (parsed: Parsed)
    ensures parsed == Parse(command, body)
  {
    var parametersRequired := RequiredParameters(command.parameters);
    var parametersOptional := OptionalParameters(command.parameters);
    var parametersParsable := Parsable(parametersRequired + parametersOptional);

    var content := RepairContent(body);
    var words, args := ExtractKeywords(Tokenise(content, parametersParsable), parametersParsable);
    var missingRequiredParameters: seq<string>;
    words, args, missingRequiredParameters := SettleLeftovers(words, args, parametersRequired, parametersOptional);
    parsed := Parsed(parametersRequired, parametersOptional, parametersParsable, content, words, args, missingRequiredParameters);
  }

  /** The end of `resolveCommandHandler`: the requirement gate, the arity check, and the handler's context. */
  method Conclude(commands: seq<Command>, command: Command, parsed: Parsed, requirementMet: bool) returns (o: Outcome)
    ensures o == Decide(commands, command, parsed, requirementMet)
  {
    if command.restricted && !requirementMet {
      return Vetoed;
    }

    var isSingleton := IsSingleton(command);
    var tooFewArguments := |parsed.missing| > 0;
    var tooManyArguments := |parsed.words| != 0;
    if !isSingleton && (tooFewArguments || tooManyArguments) {
      return UsageError(|parsed.required|,
                        if |parsed.optional| > 1 then Some(|parsed.optional|) else None);
    }

    var firstArgument := if parsed.args != [] then Some(parsed.args[0].value)
                         else if |parsed.parsable| == 0 then Some(parsed.content)
                         else None;
    var dependencies := Dependencies(command.dependencies, commands);
    return Dispatch(command, parsed.content, ToMap(parsed.args), firstArgument, dependencies);
  }

  /** The leftover words go to the one missing required parameter, else to the one optional parameter. */
  method SettleLeftovers(words: seq<string>, args: Args, parametersRequired: seq<string>, parametersOptional: seq<string>)
    returns (words': seq<string>, args': Args, missingRequiredParameters: seq<string>)
    ensures Settlement(words', args', missingRequiredParameters) == Fallback(words, args, parametersRequired, parametersOptional)
  {
    words', args' := words, args;
    missingRequiredParameters := Missing(parametersRequired, args);
    if |words'| != 0 {
      if |missingRequiredParameters| == 1 {
        args' := Set(args', missingRequiredParameters[0], Join(words', " "));
        words' := [];
        missingRequiredParameters := missingRequiredParameters[1..];
      } else if |parametersOptional| == 1 {
        args' := Set(args', parametersOptional[0], Join(words', " "));
        words' := [];
      }
    }
  }

  /**
   * The extraction loop of `resolveCommandHandler`: for each keyword token in
   * turn, the keyword and the words it claims are spliced out of `words` and
   * the value is set in `args`.
   */
  method ExtractKeywords(tokenised: seq<string>, parametersParsable: seq<string>)
    returns (words: seq<string>, args: Args)
    ensures Pool(words, args) == ExtractAll(Pool(tokenised, []), parametersParsable)
  {
    words, args := tokenised, [];
    for n := 0 to |parametersParsable|
      invariant ExtractAll(Pool(words, args), parametersParsable[n..]) == ExtractAll(Pool(tokenised, []), parametersParsable)
    {
      ExtractAllStep(Pool(words, args), parametersParsable[n..]);
      assert parametersParsable[n..][1..] == parametersParsable[n + 1..];
      words, args := ExtractKeyword(words, args, parametersParsable[n]);
    }
  }

  /** One turn of the extraction loop: splice out the keyword and the words it claims, then record the value. */
  method ExtractKeyword(words: seq<string>, args: Args, parameter: string)
    returns (words': seq<string>, args': Args)
    ensures Pool(words', args') == ExtractOne(Pool(words, args), parameter)
  {
    if parameter !in words {
      return words, args;
    }
    var start := IndexOf(words, parameter);
    var end := FindColonEnded(words[start + 1..]);
    if end == -1 {
      end := |words[start..]|;
    } else {
      end := end + 1;
    }
    var deleteCount := Clamp(end - (if start != 0 then start - 1 else start), |words| - start);
    assert deleteCount == SpliceCount(words, start);
    var extracted := words[start..start + deleteCount];
    words' := words[..start] + words[start + deleteCount..];
    ghost var value := ValueOf(extracted);
    if extracted != [] {
      extracted := extracted[1..];
    }
    args' := Set(args, KeyOf(parameter), Join(extracted, " "));
    ClaimOf(Pool(words, args), parameter, start, deleteCount);
    assert value == Join(extracted, " ");
  }
}

=== FILE: repair.dfy ===
/**
 * The colon repair run before arguments are read: a word such as
 * `user:Alice`, where a keyword was glued to its value, becomes `user: Alice`.
 */
module Repair {
  import opened Text

  /** A word the repair rewrites: it holds a colon but does not end with one. */
  predicate NeedsRepair(w: string) { ':' in w && !EndsWithColon(w) }

  /** `word.split(':').join(': ')` for the words that need it. */
  function RepairWord(w: string): string
  {
    if NeedsRepair(w) then Join(Split(w, ':'), ": ") else w
  }

  function RepairWords(words: seq<string>): (r: seq<string>)
    ensures |r| == |words|
  {
    if words == [] then [] else [RepairWord(words[0])] + RepairWords(words[1..])
  }

  /**
   * The message text after the repair: split at spaces, each word repaired, joined with spaces.
   * One pass leaves no word with a colon except at its end, and a text already in that
   * state is left exactly as it is.
   */
  function RepairContent(s: string): (r: string)
    ensures Settled(r)
    ensures Settled(s) ==> r == s
  {
    RepairWordsSettled(Split(s, ' '));
    SettledUnchanged(s);
    Join(RepairWords(Split(s, ' ')), " ")
  }

  lemma SettledUnchanged(t: string)
    ensures Settled(t) ==> Join(RepairWords(Split(t, ' ')), " ") == t
  {
    if Settled(t) {
      RepairWordsKeep(Split(t, ' '));
      JoinSplit(t, ' ');
    }
  }

  /** A text is settled when none of its space-separated words needs repair. */
  predicate Settled(t: string)
  {
    var parts := Split(t, ' ');
    forall i :: 0 <= i < |parts| ==> !NeedsRepair(parts[i])
  }

  /** Every colon of `w` followed by a space: an independent reading of `split(':').join(': ')`. */
  function SpaceColons(w: string): string
  {
    if w == [] then [] else (if w[0] == ':' then ": " else [w[0]]) + SpaceColons(w[1..])
  }

  lemma {:induction false} SpaceColonsIsSplitJoin(w: string)
    ensures Join(Split(w, ':'), ": ") == SpaceColons(w)
  {
    if w != [] {
      SpaceColonsIsSplitJoin(w[1..]);
      var rest := Split(w[1..], ':');
      if w[0] == ':' {
        assert Split(w, ':') == [""] + rest;
        assert ([""] + rest)[1..] == rest;
      } else {
        assert Split(w, ':') == [[w[0]] + rest[0]] + rest[1..];
        JoinHead([w[0]], rest[0], rest[1..], ": ");
        assert [rest[0]] + rest[1..] == rest;
      }
    }
  }

  lemma SettledAppend(a: string, b: string)
    requires Settled(a) && Settled(b)
    ensures Settled(a + " " + b)
  {
    assert a + " " + b == a + [' '] + b;
    SplitAppend(a, b, ' ');
  }

  lemma SettledCons(c: char, t: string)
    requires c != ':' && c != ' ' && Settled(t)
    ensures Settled([c] + t)
  {
    var s := [c] + t;
    assert s[0] == c && s[1..] == t;
    var parts := Split(t, ' ');
    assert Split(s, ' ') == [[c] + parts[0]] + parts[1..];
    assert !NeedsRepair(parts[0]);
    var w := [c] + parts[0];
    if ':' in w {
      assert ':' in parts[0];
    }
  }

  lemma {:induction false} SpaceColonsSettled(w: string)
    ensures Settled(SpaceColons(w))
  {
    if w == [] {
      assert Split("", ' ') == [""];
    } else {
      var rest := SpaceColons(w[1..]);
      SpaceColonsSettled(w[1..]);
      if w[0] == ':' {
        assert SpaceColons(w) == ": " + rest;
        SettledAfterColon(rest);
      } else if w[0] == ' ' {
        assert SpaceColons(w) == " " + rest;
        SettledAfterSpace(rest);
      } else {
        assert SpaceColons(w) == [w[0]] + rest;
        SettledCons(w[0], rest);
      }
    }
  }

  lemma SettledAfterColon(t: string)
    requires Settled(t)
    ensures Settled(": " + t)
  {
    SplitWithoutSeparator(":", ' ');
    SettledAppend(":", t);
    assert ":" + " " + t == ": " + t;
  }

  lemma SettledAfterSpace(t: string)
    requires Settled(t)
    ensures Settled(" " + t)
  {
    assert Split("", ' ') == [""];
    SettledAppend("", t);
    assert "" + " " + t == " " + t;
  }

  lemma RepairWordSettled(w: string)
    requires ' ' !in w
    ensures Settled(RepairWord(w))
  {
    if NeedsRepair(w) {
      SpaceColonsIsSplitJoin(w);
      SpaceColonsSettled(w);
    } else {
      SplitWithoutSeparator(w, ' ');
    }
  }

  lemma {:induction false} RepairWordsSettled(words: seq<string>)
    requires forall i :: 0 <= i < |words| ==> ' ' !in words[i]
    ensures Settled(Join(RepairWords(words), " "))
  {
    if words == [] {
      assert Split("", ' ') == [""];
    } else {
      RepairWordSettled(words[0]);
      if |words| > 1 {
        RepairWordsSettled(words[1..]);
        SettledAppend(RepairWord(words[0]), Join(RepairWords(words[1..]), " "));
      }
    }
  }

  lemma {:induction false} RepairWordsKeep(words: seq<string>)
    requires forall i :: 0 <= i < |words| ==> !NeedsRepair(words[i])
    ensures RepairWords(words) == words
  {
    if words != [] {
      RepairWordsKeep(words[1..]);
    }
  }

  /** Running the repair a second time changes nothing. */
  lemma RepairIdempotent(s: string)
    ensures RepairContent(RepairContent(s)) == RepairContent(s)
  {
  }
}

=== FILE: resolver.dfy ===
/**
 * What becomes of a message that reached the command resolver: the outcome
 * as a function of the catalog, the text and the module's requirement gate,
 * and the properties that outcome has.
 */
module Resolver {
  import opened Wrappers
  import opened Text
  import opened Catalog
  import opened Repair
  import opened Arguments

  /**
   * `Dropped`: the message was not for the bot. `UnknownCommand`: no command
   * matched. `Vetoed`: the module's requirement gate refused a restricted
   * command. `UsageError`: too few or too many arguments; `optionalCount` is
   * mentioned only when more than one optional parameter exists. `Dispatch`:
   * what the handler receives.
   */
  datatype Outcome =
    | Dropped
    | UnknownCommand
    | Vetoed
    | UsageError(requiredCount: nat, optionalCount: Option<nat>)
    | Dispatch(command: Command, content: string, parameters: map<string, string>,
               firstArgument: Option<string>, dependencies: map<string, Command>)

  /** Everything read out of the text for one command. */
  datatype Parsed = Parsed(
    required: seq<string>,
    optional: seq<string>,
    parsable: seq<string>,
    content: string,
    words: seq<string>,
    args: Args,
    missing: seq<string>)

  /** The text the command's parameters are read from: a non-singleton loses its command word. */
  function Body(command: Command, content: string): (r: string)
    ensures |r| <= |content|
    ensures !IsSingleton(command) && content != "" ==> |r| < |content|
    ensures IsSingleton(command) ==> r == content
    ensures !IsSingleton(command) && ' ' in content ==> content == FirstWord(content) + " " + r
    ensures !IsSingleton(command) && ' ' !in content ==> r == ""
  {
    if IsSingleton(command) then content else RemoveFirstWord(content)
  }

  /**
   * Reading the command's parameters out of its text: one keyword token per
   * declared parameter, a settled text, no more words left over than the text
   * has, and only required parameters reported missing.
   */
  function Parse(command: Command, body: string): (p: Parsed)
    ensures |p.parsable| == |command.parameters|
    ensures p.parsable == Keywords(command.parameters)
    ensures p.content == RepairContent(body)
    ensures Settled(p.content)
    ensures |p.words| <= |GetWords(p.content)|
    ensures forall i :: 0 <= i < |p.missing| ==> p.missing[i] in p.required
  {
    ClassificationPartitions(command.parameters);
    var required := RequiredParameters(command.parameters);
    var optional := OptionalParameters(command.parameters);
    var parsable := Parsable(required + optional);
    var content := RepairContent(body);
    var extracted := ExtractAll(Pool(Tokenise(content, parsable), []), parsable);
    var settled := Fallback(extracted.words, extracted.args, required, optional);
    Parsed(required, optional, parsable, content, settled.words, settled.args, settled.missing)
  }

  /** `args.values().next().value ?? (parametersParsable.length === 0 ? message.content : undefined)`. */
  function FirstArgument(args: Args, parsable: seq<string>, content: string): (r: Option<string>)
    ensures r.None? <==> args == [] && parsable != []
  {
    if args != [] then Some(args[0].value)
    else if parsable == [] then Some(content)
    else None
  }

  function Usage(required: seq<string>, optional: seq<string>): Outcome
  {
    UsageError(|required|, if |optional| > 1 then Some(|optional|) else None)
  }

  /** The requirement gate, then the arity check, then the handler's context. */
  function Decide(commands: seq<Command>, command: Command, p: Parsed, requirementMet: bool): (r: Outcome)
    ensures r != Dropped && r != UnknownCommand
    ensures r == Vetoed <==> command.restricted && !requirementMet
    ensures r.Dispatch? ==> r.command == command && r.content == p.content && r.parameters.Keys == Keys(p.args)
  {
    if command.restricted && !requirementMet then Vetoed
    else if !IsSingleton(command) && (|p.missing| > 0 || |p.words| != 0) then Usage(p.required, p.optional)
    else Dispatch(command, p.content, ToMap(p.args), FirstArgument(p.args, p.parsable, p.content),
                  Dependencies(command.dependencies, commands))
  }

  /** The outcome of resolving `content` against the catalog. */
  function Resolution(commands: seq<Command>, content: string, requirementMet: bool): (r: Outcome)
    ensures r != Dropped
    ensures r.Dispatch? ==> r.command in commands && Matches(r.command, FirstWord(LowerCase(content)))
    ensures r.Dispatch? ==> r.content == RepairContent(Body(r.command, content))
  {
    match FindCommand(commands, FirstWord(LowerCase(content)))
    case None => UnknownCommand
    case Some(i) => Decide(commands, commands[i], Parse(commands[i], Body(commands[i], content)), requirementMet)
  }

  // ---------------------------------------------------------------- matching

  /** "Unknown command" exactly when no command matches the lower-cased first word. */
  lemma UnknownIffNoMatch(commands: seq<Command>, content: string, requirementMet: bool)
    ensures Resolution(commands, content, requirementMet) == UnknownCommand <==>
      forall j :: 0 <= j < |commands| ==> !Matches(commands[j], FirstWord(LowerCase(content)))
  {
  }

  /** A singleton in the catalog rules out "Unknown command", whatever the text. */
  lemma SingletonNeverUnknown(commands: seq<Command>, content: string, requirementMet: bool, k: nat)
    requires k < |commands| && IsSingleton(commands[k])
    ensures Resolution(commands, content, requirementMet) != UnknownCommand
  {
    SingletonShadows(commands, FirstWord(LowerCase(content)), k);
  }

  /** The matched command is the first in catalog order; the ones before it are shadowed. */
  lemma FirstMatchWins(commands: seq<Command>, content: string, requirementMet: bool)
    requires Resolution(commands, content, requirementMet).Dispatch?
    ensures var o := Resolution(commands, content, requirementMet);
            exists i :: 0 <= i < |commands| && commands[i] == o.command &&
              Matches(commands[i], FirstWord(LowerCase(content))) &&
              forall j :: 0 <= j < i ==> !Matches(commands[j], FirstWord(LowerCase(content)))
  {
    var i := FindCommand(commands, FirstWord(LowerCase(content))).value;
    assert commands[i] == Resolution(commands, content, requirementMet).command;
  }

  /**
   * Reaching a command by its identifier or by an alias makes no difference:
   * only the words after the command word are read.
   */
  lemma MatchPathIrrelevant(commands: seq<Command>, w1: string, w2: string, rest: string, requirementMet: bool)
    requires ' ' !in w1 && ' ' !in w2
    requires FindCommand(commands, LowerCase(w1)) == FindCommand(commands, LowerCase(w2))
    requires FindCommand(commands, LowerCase(w1)).Some?
    requires !IsSingleton(commands[FindCommand(commands, LowerCase(w1)).value])
    ensures Resolution(commands, w1 + " " + rest, requirementMet) == Resolution(commands, w2 + " " + rest, requirementMet)
  {
    LowerCaseFirstWord(w1, rest);
    LowerCaseFirstWord(w2, rest);
    FirstWordOf(w1, rest);
    FirstWordOf(w2, rest);
  }

  lemma LowerCaseFirstWord(w: string, rest: string)
    requires ' ' !in w
    ensures FirstWord(LowerCase(w + " " + rest)) == LowerCase(w)
  {
    LowerCaseAppend(w, " " + rest);
    LowerCaseAppend(" ", rest);
    assert w + " " + rest == w + (" " + rest);
    assert LowerCase(" ") == " ";
    assert ' ' !in LowerCase(w) by {
      forall i | 0 <= i < |w| ensures LowerCase(w)[i] != ' ' {
        assert w[i] != ' ';
      }
    }
    assert LowerCase(w) + (" " + LowerCase(rest)) == LowerCase(w) + " " + LowerCase(rest);
    FirstWordOf(LowerCase(w), LowerCase(rest));
  }

  // ---------------------------------------------------------------- gate and arity

  /** The gate vetoes exactly the restricted commands whose requirement is not met. */
  lemma VetoedIff(commands: seq<Command>, content: string, requirementMet: bool)
    ensures Resolution(commands, content, requirementMet) == Vetoed <==>
      var m := FindCommand(commands, FirstWord(LowerCase(content)));
      m.Some? && commands[m.value].restricted && !requirementMet
  {
  }

  /**
   * A matched, unvetoed non-singleton is rejected exactly when a required
   * parameter is still missing or words are left over; the message counts the
   * required parameters and mentions the optional ones only when there are
   * more than one.
   */
  lemma UsageErrorIff(commands: seq<Command>, content: string, requirementMet: bool)
    requires FindCommand(commands, FirstWord(LowerCase(content))).Some?
    ensures var c := commands[FindCommand(commands, FirstWord(LowerCase(content))).value];
            var p := Parse(c, Body(c, content));
            var o := Resolution(commands, content, requirementMet);
            (o.UsageError? <==> !(c.restricted && !requirementMet) && !IsSingleton(c) && (p.missing != [] || p.words != [])) &&
            (o.UsageError? ==> o.requiredCount == |RequiredParameters(c.parameters)|) &&
            (o.UsageError? ==> (o.optionalCount.Some? <==> |OptionalParameters(c.parameters)| > 1))
  {
    var c := commands[FindCommand(commands, FirstWord(LowerCase(content))).value];
    var p := Parse(c, Body(c, content));
    assert Resolution(commands, content, requirementMet) == Decide(commands, c, p, requirementMet);
    assert p.required == RequiredParameters(c.parameters) && p.optional == OptionalParameters(c.parameters);
  }

  /** A singleton is never rejected for its arguments. */
  lemma SingletonNeverRejected(commands: seq<Command>, content: string, requirementMet: bool)
    requires FindCommand(commands, FirstWord(LowerCase(content))).Some?
    requires IsSingleton(commands[FindCommand(commands, FirstWord(LowerCase(content))).value])
    ensures Resolution(commands, content, requirementMet).Vetoed? || Resolution(commands, content, requirementMet).Dispatch?
  {
  }

  // ---------------------------------------------------------------- what the handler receives

  /**
   * The handler only ever sees declared names as keys; a non-singleton gets
   * every required parameter; and the first argument is one of the values, or
   * the whole repaired text.
   */
  lemma DispatchWellFormed(commands: seq<Command>, content: string, requirementMet: bool)
    requires Resolution(commands, content, requirementMet).Dispatch?
    ensures var o := Resolution(commands, content, requirementMet);
            var req := RequiredParameters(o.command.parameters);
            var opt := OptionalParameters(o.command.parameters);
            (forall k :: k in o.parameters ==> k in KeysOf(Parsable(req + opt)) || k in req || k in opt) &&
            (!IsSingleton(o.command) ==> forall i :: 0 <= i < |req| ==> req[i] in o.parameters) &&
            (o.firstArgument.Some? ==> o.firstArgument.value in o.parameters.Values || o.firstArgument.value == o.content)
  {
    var c := commands[FindCommand(commands, FirstWord(LowerCase(content))).value];
    var p := Parse(c, Body(c, content));
    ParseKeys(c, Body(c, content));
    ParseRequired(c, Body(c, content));
    FirstArgumentFound(p.args, p.parsable, p.content);
  }

  /** The keys the text yields are keyword names or declared parameter names. */
  lemma ParseKeys(command: Command, body: string)
    ensures var p := Parse(command, body);
            forall k :: k in Keys(p.args) ==> k in KeysOf(p.parsable) || k in p.required || k in p.optional
  {
    var p := Parse(command, body);
    var extracted := ExtractAll(Pool(Tokenise(p.content, p.parsable), []), p.parsable);
    assert Keys(extracted.args) <= KeysOf(p.parsable);
  }

  /** With nothing missing, every required parameter has a value. */
  lemma ParseRequired(command: Command, body: string)
    ensures var p := Parse(command, body);
            p.missing == [] ==> forall i :: 0 <= i < |p.required| ==> p.required[i] in Keys(p.args)
  {
  }

  /** A command without parameters reads no keyword and no argument. */
  lemma ParseNoParameters(command: Command, body: string)
    requires command.parameters == []
    ensures Parse(command, body).parsable == [] && Parse(command, body).args == []
  {
    assert RequiredParameters([]) == [] && OptionalParameters([]) == [];
    assert Parsable([]) == [];
  }

  /** The first argument is a value of the map, or the whole text when nothing is parsable, and is absent only when keywords exist but none was read. */
  lemma FirstArgumentFound(args: Args, parsable: seq<string>, content: string)
    ensures var f := FirstArgument(args, parsable, content);
            (f.Some? ==> f.value in ToMap(args).Values || f.value == content) &&
            (f.None? <==> args == [] && parsable != []) &&
            (args == [] && parsable == [] ==> f == Some(content))
  {
    if args != [] {
      assert args[0].key in Keys(args);
      assert Lookup(args, args[0].key) == Some(args[0].value);
    }
  }

  /**
   * The first argument is the value of the first key ever set: a later `set`
   * of another key leaves it alone, and the first `set` (or one that rewrites
   * the first key) makes it that value, even an empty one.
   */
  lemma FirstArgumentSet(args: Args, k: string, v: string, parsable: seq<string>, content: string)
    ensures args != [] && args[0].key != k ==>
      FirstArgument(Set(args, k, v), parsable, content) == FirstArgument(args, parsable, content)
    ensures args == [] || args[0].key == k ==> FirstArgument(Set(args, k, v), parsable, content) == Some(v)
  {
  }

  /** A non-singleton command reads its parameters from the text after its command word. */
  lemma BodyDropsCommandWord(command: Command, w: string, rest: string)
    requires !IsSingleton(command) && ' ' !in w
    ensures Body(command, w + " " + rest) == rest
  {
    FirstWordOf(w, rest);
  }

  /** A command that declares no parameters is handed the whole repaired text. */
  lemma NoParametersTakeWholeText(commands: seq<Command>, content: string, requirementMet: bool)
    requires Resolution(commands, content, requirementMet).Dispatch?
    requires Resolution(commands, content, requirementMet).command.parameters == []
    ensures var o := Resolution(commands, content, requirementMet);
            o.parameters == map[] && o.firstArgument == Some(RepairContent(Body(o.command, content)))
  {
    var c := commands[FindCommand(commands, FirstWord(LowerCase(content))).value];
    var p := Parse(c, Body(c, content));
    assert Resolution(commands, content, requirementMet) == Decide(commands, c, p, requirementMet);
    ParseNoParameters(c, Body(c, content));
  }

  /** The handler's dependency map: exactly the names found in the catalog, each the first command of that class. */
  lemma DispatchDependencies(commands: seq<Command>, content: string, requirementMet: bool)
    requires Resolution(commands, content, requirementMet).Dispatch?
    ensures var o := Resolution(commands, content, requirementMet);
            (forall d :: d in o.dependencies <==> d in o.command.dependencies && FindByClass(commands, d).Some?) &&
            (forall d :: d in o.dependencies ==> o.dependencies[d] == FindByClass(commands, d).value)
  {
  }
}

=== FILE: teacher.dfy ===
/**
 * The older teacher client's message gate: drop what is not for the bot,
 * lower-case and tidy the text, require the prefix outside unprefixed
 * channels, and hand the text without its prefix to the modules.
 */
module Teacher {
  import opened Wrappers
  import opened Text

  /** The parts of a message the teacher client reads. */
  datatype TeacherMessage = TeacherMessage(authorIsBot: bool, memberId: string, channelName: string, content: string)

  /** The teacher configuration: command prefix and the two channel lists. */
  datatype TeacherConfig = TeacherConfig(prefix: string, excludedChannels: seq<string>, unprefixedChannels: seq<string>)

  /** Lower case, no whitespace at either end, and no two spaces in a row. */
  predicate Tidy(s: string)
  {
    IsLowerCase(s) && NoDoubleSpace(s) && (s == [] || (!IsWhitespace(s[0]) && !IsWhitespace(s[|s| - 1])))
  }

  /** `toLowerCase().trim().replace(/ +/g, ' ')`. */
  function Normalise(content: string): (r: string)
    ensures Tidy(r)
    ensures |r| <= |content|
  {
    var trimmed := Trim(LowerCase(content));
    LowerCaseIdempotent(content);
    TrimKeepsLowerCase(LowerCase(content));
    TrimEnds(LowerCase(content));
    CollapseTidy(trimmed);
    CollapseSpaces(trimmed)
  }

  /** Collapsing the spaces of lower-case text without whitespace at its ends makes it tidy. */
  lemma CollapseTidy(t: string)
    requires IsLowerCase(t)
    requires t == [] || (!IsWhitespace(t[0]) && !IsWhitespace(t[|t| - 1]))
    ensures Tidy(CollapseSpaces(t))
  {
    CollapseKeepsLowerCase(t);
  }

  /** Tidy text is a fixed point of the normalisation, so normalising twice is normalising once. */
  lemma NormaliseKeepsTidy(s: string)
    requires Tidy(s)
    ensures Normalise(s) == s
  {
    assert LowerCase(s) == s;
    assert TrimLeft(s) == s;
    assert TrimRight(s) == s;
    CollapseSpacesKeepsCollapsed(s);
  }

  lemma NormaliseIdempotent(s: string)
    ensures Normalise(Normalise(s)) == Normalise(s)
  {
    NormaliseKeepsTidy(Normalise(s));
  }

  /** `excludedChannels.includes(removeNonAlphanumeric(name))`. */
  predicate Excluded(channelName: string, config: TeacherConfig)
  {
    RemoveNonAlphanumeric(channelName) in config.excludedChannels
  }

  /**
   * The prefix test and the prefix removal on the normalised text: text that
   * does not start with the prefix is refused unless the channel is
   * unprefixed; otherwise the first occurrence of the prefix is removed and the
   * whitespace that then leads is trimmed.
   */
  function StripPrefix(content: string, prefix: string, unprefixed: bool): (r: Option<string>)
    ensures r.None? <==> !StartsWith(content, prefix) && !unprefixed
    ensures r.Some? ==> (r.value == [] || !IsWhitespace(r.value[0])) && |r.value| <= |content|
  {
    if !StartsWith(content, prefix) && !unprefixed then None
    else Some(TrimLeft(ReplaceFirst(content, prefix)))
  }

  /** `TeacherClient.handleMessage` up to the modules: the text they receive, or `None` when it returns early. */
  function HandleMessage(message: TeacherMessage, botId: string, config: TeacherConfig): (r: Option<string>)
    ensures r.None? <==> message.authorIsBot || message.memberId == botId || Excluded(message.channelName, config)
                         || (!StartsWith(Normalise(message.content), config.prefix)
                             && message.channelName !in config.unprefixedChannels)
    ensures r.Some? ==> r.value == [] || !IsWhitespace(r.value[0])
    ensures r.Some? ==> |r.value| <= |Normalise(message.content)|
  {
    if message.authorIsBot then None
    else if message.memberId == botId then None
    else if Excluded(message.channelName, config) then None
    else StripPrefix(Normalise(message.content), config.prefix, message.channelName in config.unprefixedChannels)
  }

  /** A channel is excluded under its name exactly when it is excluded under its sanitised name. */
  lemma ExcludedSanitised(channelName: string, config: TeacherConfig)
    ensures Excluded(channelName, config) <==> Excluded(RemoveNonAlphanumeric(channelName), config)
  {
  }

  /** Punctuation anywhere in a channel name does not change whether it is excluded. */
  lemma ExcludedIgnoresPunctuation(before: string, c: char, after: string, config: TeacherConfig)
    requires !IsAlphanumeric(c)
    ensures Excluded(before + [c] + after, config) <==> Excluded(before + after, config)
  {
    assert RemoveNonAlphanumeric([c]) == [];
    RemoveNonAlphanumericAppend(before, [c]);
    assert RemoveNonAlphanumeric(before + [c]) == RemoveNonAlphanumeric(before);
    RemoveNonAlphanumericAppend(before + [c], after);
    RemoveNonAlphanumericAppend(before, after);
  }

  lemma TidySuffix(s: string, d: nat)
    requires Tidy(s) && d <= |s|
    ensures IsLowerCase(s[d..]) && NoDoubleSpace(s[d..])
    ensures s[d..] == [] || !IsWhitespace(s[d..][|s[d..]| - 1])
  {
    var r := s[d..];
    forall i | 0 <= i < |r| ensures !IsUpper(r[i]) {
      assert r[i] == s[d + i];
    }
    forall i | 0 <= i < |r| - 1 ensures !DoubleSpaceAt(r, i) {
      assert !DoubleSpaceAt(s, d + i);
      assert r[i] == s[d + i] && r[i + 1] == s[d + i + 1];
    }
  }

  /** A tail of tidy text, left-trimmed, is tidy. */
  lemma {:induction false} TidyTail(s: string, k: nat)
    requires Tidy(s) && k <= |s|
    ensures Tidy(TrimLeft(s[k..]))
    decreases |s| - k
  {
    var t := s[k..];
    if t != [] && IsWhitespace(t[0]) {
      assert t[1..] == s[k + 1..];
      TidyTail(s, k + 1);
    } else {
      TidySuffix(s, k);
    }
  }

  /** Text that starts with the prefix loses exactly the prefix and the whitespace after it, and stays tidy. */
  lemma PrefixStripped(n: string, prefix: string, unprefixed: bool)
    requires Tidy(n) && StartsWith(n, prefix)
    ensures StripPrefix(n, prefix, unprefixed) == Some(TrimLeft(n[|prefix|..]))
    ensures Tidy(StripPrefix(n, prefix, unprefixed).value)
  {
    ReplaceFirstAtStart(n, prefix);
    TidyTail(n, |prefix|);
  }

  /**
   * In an unprefixed channel, text that does not start with the prefix loses
   * its first occurrence of the prefix wherever it stands.
   */
  lemma MidTextPrefixRemoved(n: string, prefix: string, i: nat)
    requires OccursAt(n, prefix, i)
    requires forall j :: 0 <= j < i ==> !OccursAt(n, prefix, j)
    ensures StripPrefix(n, prefix, true) == Some(TrimLeft(n[..i] + n[i + |prefix|..]))
  {
    ReplaceFirstAt(n, prefix, i);
  }

  /**
   * Removing a prefix that stands between two spaces leaves two spaces in a
   * row: the space collapsing runs before the prefix is removed.
   */
  lemma MidTextRemovalDoublesSpace(n: string, prefix: string, i: nat)
    requires Tidy(n)
    requires OccursAt(n, prefix, i)
    requires forall j :: 0 <= j < i ==> !OccursAt(n, prefix, j)
    requires 0 < i && i + |prefix| < |n| && n[i - 1] == ' ' && n[i + |prefix|] == ' '
    ensures StripPrefix(n, prefix, true).Some?
    ensures var r := StripPrefix(n, prefix, true).value;
            i < |r| && r[i - 1] == ' ' && r[i] == ' '
  {
    MidTextPrefixRemoved(n, prefix, i);
    var joined := n[..i] + n[i + |prefix|..];
    assert joined[0] == n[0];
    assert TrimLeft(joined) == joined;
    assert joined[i - 1] == ' ' && joined[i] == ' ';
  }

  /** In an unprefixed channel, text in which the prefix never occurs is passed on unchanged. */
  lemma UnprefixedTextKept(n: string, prefix: string)
    requires Tidy(n)
    requires forall j :: 0 <= j <= |n| ==> !OccursAt(n, prefix, j)
    ensures StripPrefix(n, prefix, true) == Some(n)
  {
    assert IndexOfFrom(n, prefix, 0).None?;
  }
}

=== FILE: text.dfy ===
/**
 * Strings as the bot sees them: the JavaScript string methods it calls
 * (`split`, `join`, `startsWith`, `replace` with a string pattern, `trim`,
 * `toLowerCase`) and the word helpers of its `Utils` module, stated as functions
 * over `seq<char>`.
 */
module Text {
  import opened Wrappers

  // ---------------------------------------------------------------- characters

  predicate IsUpper(c: char) { 'A' <= c <= 'Z' }

  /** `toLowerCase` on one character; only the ASCII letters are folded. */
  function Lower(c: char): (r: char)
    ensures !IsUpper(r)
    ensures IsUpper(c) || r == c
  {
    if IsUpper(c) then (c as int - 'A' as int + 'a' as int) as char else c
  }

  function LowerCase(s: string): (r: string)
    ensures |r| == |s|
    ensures forall i :: 0 <= i < |s| ==> r[i] == Lower(s[i])
  {
    seq(|s|, i requires 0 <= i < |s| => Lower(s[i]))
  }

  predicate IsLowerCase(s: string) { forall i :: 0 <= i < |s| ==> !IsUpper(s[i]) }

  lemma LowerCaseIdempotent(s: string)
    ensures IsLowerCase(LowerCase(s))
    ensures LowerCase(LowerCase(s)) == LowerCase(s)
  {
  }

  lemma LowerCaseAppend(a: string, b: string)
    ensures LowerCase(a + b) == LowerCase(a) + LowerCase(b)
  {
  }

  /** The characters JavaScript's `trim` and `trimLeft` remove (WhiteSpace and LineTerminator). */
  predicate IsWhitespace(c: char) {
    c == ' ' || c == '\t' || c == '\n' || c == '\r' || c == '\U{000B}' || c == '\U{000C}'
    || c == '\U{00A0}' || c == '\U{1680}' || ('\U{2000}' <= c <= '\U{200A}')
    || c == '\U{2028}' || c == '\U{2029}' || c == '\U{202F}' || c == '\U{205F}'
    || c == '\U{3000}' || c == '\U{FEFF}'
  }

  predicate IsAlphanumeric(c: char) { 'a' <= c <= 'z' || 'A' <= c <= 'Z' || '0' <= c <= '9' }

  // ---------------------------------------------------------------- split and join

  /** `s.split(sep)` for a one-character separator: never empty, one more part than separators. */
  function Split(s: string, sep: char): (parts: seq<string>)
    ensures |parts| >= 1
    ensures forall i :: 0 <= i < |parts| ==> sep !in parts[i]
    ensures |parts[0]| <= |s| && parts[0] == s[..|parts[0]|]
    ensures |parts[0]| == |s| || s[|parts[0]|] == sep
  {
    if s == [] then [""]
    else
      var rest := Split(s[1..], sep);
      if s[0] == sep then [""] + rest
      else [[s[0]] + rest[0]] + rest[1..]
  }

  /** `parts.join(sep)`. */
  function Join(parts: seq<string>, sep: string): string
  {
    if |parts| == 0 then ""
    else if |parts| == 1 then parts[0]
    else parts[0] + sep + Join(parts[1..], sep)
  }

  lemma {:induction false} SplitWithoutSeparator(s: string, sep: char)
    requires sep !in s
    ensures Split(s, sep) == [s]
  {
    if s != [] {
      SplitWithoutSeparator(s[1..], sep);
      assert [s[0]] + s[1..] == s;
    }
  }

  /** Splitting at a separator splits the two sides independently. */
  lemma {:induction false} SplitAppend(a: string, b: string, sep: char)
    ensures Split(a + [sep] + b, sep) == Split(a, sep) + Split(b, sep)
  {
    var s := a + [sep] + b;
    if a == [] {
      assert s == [sep] + b && s[1..] == b;
    } else {
      assert s[0] == a[0] && s[1..] == a[1..] + [sep] + b;
      SplitAppend(a[1..], b, sep);
    }
  }

  lemma JoinHead(h: string, t: string, rest: seq<string>, sep: string)
    ensures Join([h + t] + rest, sep) == h + Join([t] + rest, sep)
  {
    if |rest| > 0 {
      assert ([h + t] + rest)[1..] == rest == ([t] + rest)[1..];
    }
  }

  /** Joining the parts of a split with the same separator gives the string back. */
  lemma {:induction false} JoinSplit(s: string, sep: char)
    ensures Join(Split(s, sep), [sep]) == s
  {
    if s != [] {
      var rest := Split(s[1..], sep);
      JoinSplit(s[1..], sep);
      if s[0] == sep {
        assert ([""] + rest)[1..] == rest;
        assert s == [sep] + s[1..];
      } else {
        JoinHead([s[0]], rest[0], rest[1..], [sep]);
        assert [rest[0]] + rest[1..] == rest;
        assert s == [s[0]] + s[1..];
      }
    }
  }

  // ---------------------------------------------------------------- words

  /** The entries of `parts` that are not empty, in order. */
  function NonEmpty(parts: seq<string>): (r: seq<string>)
    ensures |r| <= |parts|
    ensures forall i :: 0 <= i < |r| ==> r[i] != "" && r[i] in parts
  {
    if parts == [] then []
    else (if parts[0] == "" then [] else [parts[0]]) + NonEmpty(parts[1..])
  }

  /** `Utils.getWords`: the non-empty words of `s` between single spaces. */
  function GetWords(s: string): (r: seq<string>)
    ensures forall i :: 0 <= i < |r| ==> r[i] != "" && ' ' !in r[i]
  {
    NonEmpty(Split(s, ' '))
  }

  lemma {:induction false} NonEmptyAppend(a: seq<string>, b: seq<string>)
    ensures NonEmpty(a + b) == NonEmpty(a) + NonEmpty(b)
  {
    if a == [] {
      assert a + b == b;
    } else {
      assert (a + b)[0] == a[0] && (a + b)[1..] == a[1..] + b;
      NonEmptyAppend(a[1..], b);
    }
  }

  /** A space separates words: the words on either side of it are read independently. */
  lemma GetWordsSpace(p: string, x: string)
    ensures GetWords(p + [' '] + x) == GetWords(p) + GetWords(x)
  {
    SplitAppend(p, x, ' ');
    NonEmptyAppend(Split(p, ' '), Split(x, ' '));
  }

  /** Words joined by single spaces are read back as the same words. */
  lemma {:induction false} WordsOfJoin(words: seq<string>)
    requires forall i :: 0 <= i < |words| ==> words[i] != "" && ' ' !in words[i]
    ensures GetWords(Join(words, " ")) == words
  {
    if |words| == 1 {
      SplitWithoutSeparator(words[0], ' ');
    } else if |words| > 1 {
      WordsOfJoin(words[1..]);
      GetWordsSpace(words[0], Join(words[1..], " "));
      SplitWithoutSeparator(words[0], ' ');
      assert words == [words[0]] + words[1..];
    }
  }

  lemma JoinCons(a: string, rest: seq<string>)
    ensures Join([a] + rest, "") == a + Join(rest, "")
  {
    if rest != [] {
      assert ([a] + rest)[1..] == rest;
    }
  }

  /** The words of a text, run together, are its non-space characters: `getWords` loses nothing but spaces. */
  lemma GetWordsKeepNonSpaces(s: string)
    ensures Join(GetWords(s), "") == NonSpaces(s)
  {
    NonEmptyJoinEmpty(Split(s, ' '));
    SplitJoinEmpty(s);
  }

  /** Run together, the empty parts contribute nothing. */
  lemma {:induction false} NonEmptyJoinEmpty(parts: seq<string>)
    ensures Join(NonEmpty(parts), "") == Join(parts, "")
  {
    if parts != [] {
      NonEmptyJoinEmpty(parts[1..]);
      var tail := NonEmpty(parts[1..]);
      if parts[0] == "" {
        assert NonEmpty(parts) == tail;
      } else {
        assert NonEmpty(parts) == [parts[0]] + tail;
        JoinCons(parts[0], tail);
      }
      JoinCons(parts[0], parts[1..]);
      assert [parts[0]] + parts[1..] == parts;
    }
  }

  lemma {:induction false} SplitJoinEmpty(s: string)
    ensures Join(Split(s, ' '), "") == NonSpaces(s)
  {
    if s != [] {
      var rest := Split(s[1..], ' ');
      SplitJoinEmpty(s[1..]);
      if s[0] == ' ' {
        JoinCons("", rest);
      } else {
        JoinHead([s[0]], rest[0], rest[1..], "");
        assert [rest[0]] + rest[1..] == rest;
      }
    }
  }

  lemma {:induction false} NonSpacesAppend(a: string, b: string)
    ensures NonSpaces(a + b) == NonSpaces(a) + NonSpaces(b)
  {
    if a == [] {
      assert a + b == b;
    } else {
      assert (a + b)[0] == a[0] && (a + b)[1..] == a[1..] + b;
      NonSpacesAppend(a[1..], b);
    }
  }

  lemma {:induction false} NonSpacesOfWord(w: string)
    requires ' ' !in w
    ensures NonSpaces(w) == w
  {
    if w != [] {
      NonSpacesOfWord(w[1..]);
      assert w == [w[0]] + w[1..];
    }
  }

  lemma {:induction false} NonSpacesJoinWords(words: seq<string>)
    requires forall i :: 0 <= i < |words| ==> ' ' !in words[i]
    ensures NonSpaces(Join(words, " ")) == Join(words, "")
  {
    if |words| == 1 {
      NonSpacesOfWord(words[0]);
    } else if |words| > 1 {
      var rest := Join(words[1..], " ");
      NonSpacesJoinWords(words[1..]);
      NonSpacesOfWord(words[0]);
      NonSpacesAppend(words[0] + " ", rest);
      NonSpacesAppend(words[0], " ");
      assert NonSpaces(" ") == "";
    }
  }

  /** `Utils.normaliseSpaces`: runs of spaces collapsed to one, no space at either end. */
  function NormaliseSpaces(s: string): (r: string)
    ensures SpacesNormalised(r)
    ensures r == "" <==> GetWords(s) == []
    ensures GetWords(r) == GetWords(s)
    ensures NonSpaces(r) == NonSpaces(s)
  {
    var words := GetWords(s);
    JoinWordsNormalised(words);
    WordsOfJoin(words);
    NonSpacesJoinWords(words);
    GetWordsKeepNonSpaces(s);
    Join(words, " ")
  }

  /** Every space stands between two words: none leads, none trails, none doubles. */
  predicate SpacesNormalised(s: string)
  {
    forall i :: 0 <= i < |s| ==> SpaceBetweenWords(s, i)
  }

  /** A space at `i` has a non-space character on each side. */
  predicate SpaceBetweenWords(s: string, i: nat)
    requires i < |s|
  {
    s[i] == ' ' ==> 0 < i < |s| - 1 && s[i + 1] != ' '
  }

  lemma {:induction false} JoinWordsNormalised(words: seq<string>)
    requires forall i :: 0 <= i < |words| ==> words[i] != "" && ' ' !in words[i]
    ensures SpacesNormalised(Join(words, " "))
    ensures Join(words, " ") == "" <==> words == []
  {
    if |words| > 1 {
      var w, rest := words[0], Join(words[1..], " ");
      JoinWordsNormalised(words[1..]);
      var s := w + " " + rest;
      assert Join(words, " ") == s;
      forall i | 0 <= i < |s|
        ensures SpaceBetweenWords(s, i)
      {
        if i < |w| {
          assert s[i] == w[i];
        } else if i == |w| {
          assert s[i + 1] == rest[0];
        } else {
          assert SpaceBetweenWords(rest, i - |w| - 1);
          assert s[i] == rest[i - |w| - 1];
          if s[i] == ' ' {
            assert s[i + 1] == rest[i - |w|];
          }
        }
      }
    }
  }

  /** `s.split(' ')[0]`: everything before the first space. */
  function FirstWord(s: string): (r: string)
    ensures ' ' !in r
    ensures |r| <= |s| && r == s[..|r|]
    ensures |r| == |s| || s[|r|] == ' '
  {
    Split(s, ' ')[0]
  }

  /** `Utils.removeFirstWord`: everything after the first space, or nothing when there is none. */
  function RemoveFirstWord(s: string): (r: string)
    ensures ' ' in s ==> s == FirstWord(s) + " " + r
    ensures ' ' !in s ==> r == ""
  {
    if s == [] then ""
    else if s[0] == ' ' then s[1..]
    else
      var r := RemoveFirstWord(s[1..]);
      assert FirstWord(s) == [s[0]] + FirstWord(s[1..]);
      assert s == [s[0]] + s[1..];
      r
  }

  lemma FirstWordOf(w: string, rest: string)
    requires ' ' !in w
    ensures FirstWord(w + " " + rest) == w
    ensures RemoveFirstWord(w + " " + rest) == rest
  {
    var s := w + " " + rest;
    assert s == w + [' '] + rest;
    SplitAppend(w, rest, ' ');
    SplitWithoutSeparator(w, ' ');
    assert FirstWord(s) == w;
    var r := RemoveFirstWord(s);
    assert s == w + " " + r;
    assert |r| == |rest|;
    assert r == s[|w| + 1..] == rest;
  }

  /** A leading word is kept as it is, with one space before the normalised rest. */
  lemma NormaliseAfterWord(w: string, rest: string)
    requires w != "" && ' ' !in w && GetWords(rest) != []
    ensures NormaliseSpaces(w + " " + rest) == w + " " + NormaliseSpaces(rest)
  {
    var ws := GetWords(rest);
    assert w + " " + rest == w + [' '] + rest;
    GetWordsSpace(w, rest);
    SplitWithoutSeparator(w, ' ');
    assert GetWords(w) == [w];
    assert ([w] + ws)[1..] == ws;
  }

  /** Two words separated by one space are already normalised. */
  lemma NormaliseTwoWords(w: string, rest: string)
    requires w != "" && ' ' !in w && rest != "" && ' ' !in rest
    ensures NormaliseSpaces(w + " " + rest) == w + " " + rest
  {
    var s := w + " " + rest;
    assert s == w + [' '] + rest;
    SplitAppend(w, rest, ' ');
    SplitWithoutSeparator(w, ' ');
    SplitWithoutSeparator(rest, ' ');
    assert Split(s, ' ') == [w, rest];
    assert NonEmpty([w, rest]) == [w] + NonEmpty([w, rest][1..]);
    assert [w, rest][1..] == [rest];
    assert GetWords(s) == [w, rest];
    assert Join([w, rest], " ") == w + " " + Join([rest], " ");
  }

  /** Dropping the first word of a normalised text leaves a normalised, non-empty text. */
  lemma RemoveFirstWordNormalised(s: string)
    requires SpacesNormalised(s) && ' ' in s
    ensures SpacesNormalised(RemoveFirstWord(s)) && RemoveFirstWord(s) != ""
  {
    var f, r := FirstWord(s), RemoveFirstWord(s);
    assert s == f + " " + r;
    assert s[|f|] == ' ';
    assert SpaceBetweenWords(s, |f|);
    forall j | 0 <= j < |r|
      ensures SpaceBetweenWords(r, j)
    {
      assert SpaceBetweenWords(s, |f| + 1 + j);
      assert s[|f| + 1 + j] == r[j];
      if r[j] == ' ' {
        assert s[|f| + 2 + j] == r[j + 1];
      }
    }
  }

  // ---------------------------------------------------------------- prefixes and replace

  predicate StartsWith(s: string, p: string) { |p| <= |s| && s[..|p|] == p }

  /** `w.endsWith(':')`. */
  predicate EndsWithColon(w: string) { |w| > 0 && w[|w| - 1] == ':' }

  predicate OccursAt(s: string, p: string, i: nat) { i + |p| <= |s| && s[i..i + |p|] == p }

  /** `s.indexOf(p, from)` as an option: the first occurrence at or after `from`. */
  function IndexOfFrom(s: string, p: string, from: nat): (r: Option<nat>)
    decreases |s| - from
    ensures r.Some? ==> from <= r.value && OccursAt(s, p, r.value)
    ensures r.Some? ==> forall j :: from <= j < r.value ==> !OccursAt(s, p, j)
    ensures r.None? ==> forall j :: from <= j ==> !OccursAt(s, p, j)
  {
    if from + |p| > |s| then None
    else if s[from..from + |p|] == p then Some(from)
    else IndexOfFrom(s, p, from + 1)
  }

  /** `s.replace(p, '')` with a string pattern: only the first occurrence is removed. */
  function ReplaceFirst(s: string, p: string): (r: string)
    ensures (forall j: nat :: !OccursAt(s, p, j)) ==> r == s
    ensures (exists j: nat :: OccursAt(s, p, j)) ==> |r| + |p| == |s|
  {
    match IndexOfFrom(s, p, 0)
    case None => s
    case Some(i) => s[..i] + s[i + |p|..]
  }

  lemma ReplaceFirstAtStart(s: string, p: string)
    requires StartsWith(s, p)
    ensures ReplaceFirst(s, p) == s[|p|..]
  {
    assert OccursAt(s, p, 0);
  }

  lemma ReplaceFirstAt(s: string, p: string, i: nat)
    requires OccursAt(s, p, i)
    requires forall j :: 0 <= j < i ==> !OccursAt(s, p, j)
    ensures ReplaceFirst(s, p) == s[..i] + s[i + |p|..]
  {
  }

  // ---------------------------------------------------------------- trimming

  /** `trimLeft`. */
  function TrimLeft(s: string): (r: string)
    ensures |r| <= |s| && r == s[|s| - |r|..]
    ensures r == [] || !IsWhitespace(r[0])
    ensures forall i :: 0 <= i < |s| - |r| ==> IsWhitespace(s[i])
  {
    if s != [] && IsWhitespace(s[0]) then TrimLeft(s[1..]) else s
  }

  /** `trimRight`, the other half of `trim`. */
  function TrimRight(s: string): (r: string)
    ensures |r| <= |s| && r == s[..|r|]
    ensures r == [] || !IsWhitespace(r[|r| - 1])
    ensures forall i :: |r| <= i < |s| ==> IsWhitespace(s[i])
  {
    if s != [] && IsWhitespace(s[|s| - 1]) then TrimRight(s[..|s| - 1]) else s
  }

  /** `trim` leaves no whitespace at either end. */
  lemma TrimEnds(s: string)
    ensures |Trim(s)| <= |s|
    ensures Trim(s) == [] || (!IsWhitespace(Trim(s)[0]) && !IsWhitespace(Trim(s)[|Trim(s)| - 1]))
  {
    var l := TrimLeft(s);
    var r := TrimRight(l);
    if r != [] {
      assert r[0] == l[0];
    }
  }

  lemma TrimKeepsLowerCase(s: string)
    requires IsLowerCase(s)
    ensures IsLowerCase(TrimLeft(s)) && IsLowerCase(TrimRight(TrimLeft(s)))
  {
    var l := TrimLeft(s);
    forall i | 0 <= i < |l| ensures !IsUpper(l[i]) {
      assert l[i] == s[|s| - |l| + i];
    }
    var r := TrimRight(l);
    forall i | 0 <= i < |r| ensures !IsUpper(r[i]) {
      assert r[i] == l[i];
    }
  }

  function Trim(s: string): string { TrimRight(TrimLeft(s)) }

  predicate NoDoubleSpace(s: string) { forall i :: 0 <= i < |s| - 1 ==> !DoubleSpaceAt(s, i) }

  predicate DoubleSpaceAt(s: string, i: nat)
    requires i + 1 < |s|
  {
    s[i] == ' ' && s[i + 1] == ' '
  }

  /** The characters of `s` other than spaces, in order. */
  function NonSpaces(s: string): string
  {
    if s == [] then [] else (if s[0] == ' ' then [] else [s[0]]) + NonSpaces(s[1..])
  }

  /** `s.replace(/ +/g, ' ')`: every run of spaces becomes one space; the ends and the other characters stay. */
  function CollapseSpaces(s: string): (r: string)
    ensures |r| <= |s| && (r == [] <==> s == [])
    ensures s != [] ==> r[0] == s[0] && r[|r| - 1] == s[|s| - 1]
    ensures NoDoubleSpace(r)
  {
    if s == [] then []
    else if |s| >= 2 && s[0] == ' ' && s[1] == ' ' then CollapseSpaces(s[1..])
    else
      var rest := CollapseSpaces(s[1..]);
      var r := [s[0]] + rest;
      assert forall i :: 1 <= i < |r| ==> r[i] == rest[i - 1];
      forall i | 0 <= i < |r| - 1 ensures !DoubleSpaceAt(r, i) {
        if i > 0 {
          assert !DoubleSpaceAt(rest, i - 1);
        }
      }
      r
  }

  /** Collapsing removes spaces only: the other characters stay, in order. */
  lemma {:induction false} CollapseKeepsNonSpaces(s: string)
    ensures NonSpaces(CollapseSpaces(s)) == NonSpaces(s)
  {
    if s != [] {
      CollapseKeepsNonSpaces(s[1..]);
      CollapseStep(s);
      if !(|s| >= 2 && s[0] == ' ' && s[1] == ' ') {
        NonSpacesAppend([s[0]], CollapseSpaces(s[1..]));
        NonSpacesAppend([s[0]], s[1..]);
        assert s == [s[0]] + s[1..];
      }
    }
  }

  lemma {:induction false} CollapseKeepsLowerCase(s: string)
    requires IsLowerCase(s)
    ensures IsLowerCase(CollapseSpaces(s))
  {
    if s != [] {
      assert IsLowerCase(s[1..]) by {
        forall i | 0 <= i < |s| - 1 ensures !IsUpper(s[1..][i]) {
          assert s[1..][i] == s[i + 1];
        }
      }
      CollapseKeepsLowerCase(s[1..]);
    }
  }

  /** Text with no two spaces in a row is left as it is. */
  lemma {:induction false} CollapseSpacesKeepsCollapsed(s: string)
    requires NoDoubleSpace(s)
    ensures CollapseSpaces(s) == s
  {
    if s != [] {
      assert NoDoubleSpace(s[1..]) by {
        forall i | 0 <= i < |s[1..]| - 1 ensures !DoubleSpaceAt(s[1..], i) {
          assert !DoubleSpaceAt(s, i + 1);
          assert s[1..][i] == s[i + 1] && s[1..][i + 1] == s[i + 2];
        }
      }
      CollapseSpacesKeepsCollapsed(s[1..]);
      if |s| >= 2 {
        assert !DoubleSpaceAt(s, 0);
      }
      assert [s[0]] + s[1..] == s;
    }
  }

  /** `removeNonAlphanumeric`: the channel name keeps only its ASCII letters and digits. */
  function RemoveNonAlphanumeric(s: string): (r: string)
    ensures |r| <= |s|
    ensures forall i :: 0 <= i < |r| ==> IsAlphanumeric(r[i])
    ensures (forall i :: 0 <= i < |s| ==> IsAlphanumeric(s[i])) ==> r == s
    ensures (forall i :: 0 <= i < |s| ==> !IsAlphanumeric(s[i])) ==> r == []
  {
    if s == [] then []
    else
      assert forall i :: 1 <= i < |s| ==> s[1..][i - 1] == s[i];
      (if IsAlphanumeric(s[0]) then [s[0]] else []) + RemoveNonAlphanumeric(s[1..])
  }

  /** Sanitising works character by character: a name sanitises as its two halves do. */
  lemma {:induction false} RemoveNonAlphanumericAppend(a: string, b: string)
    ensures RemoveNonAlphanumeric(a + b) == RemoveNonAlphanumeric(a) + RemoveNonAlphanumeric(b)
  {
    if a == [] {
      assert a + b == b;
    } else {
      assert (a + b)[0] == a[0] && (a + b)[1..] == a[1..] + b;
      RemoveNonAlphanumericAppend(a[1..], b);
    }
  }

  /** Collapsing keeps the words, so every run of spaces becomes one space and never none. */
  lemma CollapseKeepsWords(s: string)
    ensures GetWords(CollapseSpaces(s)) == GetWords(s)
  {
    CollapseKeepsWordsAfter([], s);
    assert [] + CollapseSpaces(s) == CollapseSpaces(s) && [] + s == s;
  }

  lemma {:induction false} CollapseKeepsWordsAfter(p: string, s: string)
    ensures GetWords(p + CollapseSpaces(s)) == GetWords(p + s)
    decreases |s|
  {
    if s == [] {
      assert p + CollapseSpaces(s) == p + s;
    } else {
      CollapseStep(s);
      if |s| >= 2 && s[0] == ' ' && s[1] == ' ' {
        CollapseKeepsWordsAfter(p, s[1..]);
        DoubleSpaceWords(p, s);
      } else {
        CollapseKeepsWordsAfter(p + [s[0]], s[1..]);
        ConsAssoc(p, s[0], CollapseSpaces(s), CollapseSpaces(s[1..]));
        ConsAssoc(p, s[0], s, s[1..]);
      }
    }
  }

  /** One step of `CollapseSpaces`: a space followed by a space is dropped, anything else is kept. */
  lemma CollapseStep(s: string)
    requires s != []
    ensures |s| >= 2 && s[0] == ' ' && s[1] == ' ' ==> CollapseSpaces(s) == CollapseSpaces(s[1..])
    ensures !(|s| >= 2 && s[0] == ' ' && s[1] == ' ') ==> CollapseSpaces(s) == [s[0]] + CollapseSpaces(s[1..])
  {
  }

  lemma ConsAssoc(p: string, ch: char, c: string, rest: string)
    requires c == [ch] + rest
    ensures p + c == p + [ch] + rest
  {
  }

  /** The first of two spaces in a row separates no words. */
  lemma DoubleSpaceWords(p: string, s: string)
    requires |s| >= 2 && s[0] == ' ' && s[1] == ' '
    ensures GetWords(p + s[1..]) == GetWords(p + s)
  {
    assert p + s == p + [' '] + s[1..];
    assert p + s[1..] == p + [' '] + s[2..];
    assert s[1..] == [] + [' '] + s[2..];
    GetWordsSpace(p, s[1..]);
    GetWordsSpace(p, s[2..]);
    GetWordsSpace([], s[2..]);
  }

}

=== FILE: wrappers.dfy ===
/** The optional value used wherever the source yields `undefined` or returns early. */
module Wrappers {

  datatype Option<+T> = None | Some(value: T)
}
